=== FILE: README.md ===
# Copy-dialog inclusion engine and preference-pane registry (Dafny model)

This project models two pieces of Zotero's client code.

**The copy dialog** (`chrome/content/zotero/copyDialog.js`). It decides which records are written when items are copied into another library. The records are the selected top-level items plus their direct child notes and attachments. The dialog state is modelled as an immutable `Inclusion.Dialog` record:

- `excluded`: the ids that will not be copied (`excludedItemIDs`).
- `linked`: the items that already have a counterpart in the target library (`linkedItemsInTargetLibrary`). It is an insertion-ordered map, `Linked.LinkedIndex`.
- `overwrite`: the "overwrite existing items" gate.
- `items`, `childNotes`, `childFiles`, `childLinks`: the selection and the three child categories.

Item handles become `Items.Item` values: id, kind, parent id, and child note and attachment ids. `Zotero.Items.get` becomes a map `Items.Catalog`. Every user action is a pure function from one `Dialog` to the next:

- `setExcluded` is `Inclusion.Exclude` and `Inclusion.Include`.
- The toggle button is `Bulk.ToggleSelected`.
- The category checkboxes are `Bulk.UpdateItems`.
- The overwrite checkbox is `Bulk.SetOverwrite`.

The read-side views are `Views.GetExtraRowData`, `Views.UpdateCheckbox` and `Views.UpdateButtons`. The asynchronous `getLinkedItem` lookups of `doLoad` become an input map from item id to `Linked.Counterpart`. `DialogLoad.Load` builds the initial state from it.

A `Catalog` is the dialog's view of the item store: the selected items, their parents, and the untrashed child notes and attachments those items list. `Items.WellFormed` states the shape of that view. Trees are at most two deep, and parent links and child lists agree, so every child in the view is listed by its parent. This holds only because the view leaves out trashed children and annotations. Under it, every operation keeps the invariant `Items.ParentsIncluded`: an item that will be copied never has a parent that will not. The lemmas for this are `Inclusion.SetExcludedPreservesParentsIncluded`, `Bulk.ToggleSelectedPreservesParentsIncluded`, `Bulk.UpdateItemsPreservesParentsIncluded`, `Bulk.SetOverwritePreservesParentsIncluded` and `DialogLoad.LoadPreservesParentsIncluded`.

**The preference-pane registry** (`chrome/content/zotero/xpcom/preferencePanes.js`). `PreferencePanes.BuiltInPanes` holds the six built-in panes. A `Registry` holds the built-in panes, fixed when it is created (`Initial`), and the plugin panes. `Register` validates and appends, and `Unregister` filters by id. Pane ids stay distinct across both lists under any sequence of operations, each finishing before the next starts (`RunPreservesValid`).

Behaviour worth knowing, modelled as the code has it:

- Turning the overwrite gate back on re-includes every item that has a counterpart. The handler calls `setExcluded(x, false)` for each key of the linked map (`copyDialog.js:82-88`), so `Bulk.SetOverwrite` proves that all those items end up included.
- A selected item's counterpart is indexed as soon as it is not deleted (`copyDialog.js:75-78`). Child lookups also reject a counterpart whose parent is deleted (`copyDialog.js:44-46`, `68-70`).
- The row action looks up only the row's own id (`copyDialog.js:322-323`). Bulk actions and include refusals also look at the parent's id (`copyDialog.js:338-341`).
- Including a child pulls in its parent but leaves its siblings as they were (`copyDialog.js:215-229`, proved as `Inclusion.IncludeLeavesSiblings`).
- With the gate off, including a parent that has no counterpart also includes its children that do have one. The refusal at `copyDialog.js:211-213` carries the comment "Can't include - would overwrite, but that's disabled". It checks only the item being included, through its own link and its parent's. The cascade at `copyDialog.js:214-229` then un-excludes the item's attachments and notes without checking their links. `Views.GateBypassedThroughParent` proves that such a child then shows merge.
- The order of the linked map's keys changes what turning the gate on includes. Including an attachment first includes its parent as well, so the parent's own include is then a no-op and the parent's other children stay excluded (`Bulk.SetOverwriteDependsOnKeyOrder`). `doLoad` fixes that order: it looks up each selected item's notes and attachments before the item itself (`copyDialog.js:35-78`). So a selected item's live child keys come before its own key (`DialogLoad.ChildKeyBeforeItemKey`). As a result, in a freshly loaded dialog, unchecking and re-checking "overwrite" leaves excluded a note that has no counterpart but whose parent and sibling attachment do (`DialogLoad.GateOffOnAfterLoad`).
- The toggle's result depends on the order of the selection in the same way. `_keepAllowed` keeps order (`Inclusion.KeepAllowedConcat`). With a whole family excluded, toggling [attachment, parent] leaves the parent's note excluded, while toggling [parent, attachment] includes it (`Bulk.ToggleDependsOnSelectionOrder`).
- `_updateItems` passes every item of a category to `setExcluded`, disallowed ones included. Includes of disallowed items are refused one by one (`copyDialog.js:308-313`).

## Model

| member | source | states |
|---|---|---|
| `Inclusion.KeepAllowed` | chrome/content/zotero/copyDialog.js:343-348 | keeps exactly the allowed items (gate on, or neither the item nor its parent is linked); the identity when the gate is on |
| `Inclusion.KeepAllowedConcat` | chrome/content/zotero/copyDialog.js:343-348 | the filter keeps order: filtering a joined list is joining the filtered parts |
| `Inclusion.KeepAllowedOne` | chrome/content/zotero/copyDialog.js:343-348 | one item is kept exactly when it is allowed |
| `Inclusion.KeepAllowedIdempotent` | chrome/content/zotero/copyDialog.js:268-285 | filtering an already-filtered list again (as `_updateCheckbox` does) changes nothing |
| `Inclusion.AddIds` | chrome/content/zotero/copyDialog.js:188-199 | marking ids one at a time marks exactly the set of those ids |
| `Inclusion.RemoveIds` | chrome/content/zotero/copyDialog.js:215-229 | unmarking ids one at a time unmarks exactly the set of those ids |
| `Inclusion.Exclude` | chrome/content/zotero/copyDialog.js:177-200 | no-op on an excluded item; otherwise adds exactly the item, its attachments (unless it is an attachment) and its notes (unless it is a note), and nothing else |
| `Inclusion.Include` | chrome/content/zotero/copyDialog.js:201-230 | no-op on an included item; refused (no change) when the gate is off and the item or its parent is linked; otherwise removes exactly the item, its parent and its direct children |
| `Inclusion.SetExcluded` | chrome/content/zotero/copyDialog.js:177-231 | only the exclusion set changes; excluding only grows it within the item's family and leaves the item excluded; an allowed include leaves the item included |
| `Inclusion.ExcludeIdempotent` | chrome/content/zotero/copyDialog.js:184-187 | excluding twice equals excluding once |
| `Inclusion.IncludeIdempotent` | chrome/content/zotero/copyDialog.js:207-214 | including twice equals including once, refused or not |
| `Inclusion.ExcludeLeavesParent` | chrome/content/zotero/copyDialog.js:188-199 | in a well-formed store, excluding a child never changes its parent's state |
| `Inclusion.IncludeLeavesSiblings` | chrome/content/zotero/copyDialog.js:215-229 | in a well-formed store, including a child leaves every sibling's state unchanged |
| `Inclusion.ExcludePreservesParentsIncluded` | chrome/content/zotero/copyDialog.js:188-199 | excluding keeps "a copied child has a copied parent" |
| `Inclusion.IncludePreservesParentsIncluded` | chrome/content/zotero/copyDialog.js:215-229 | including keeps "a copied child has a copied parent" |
| `Inclusion.SetExcludedPreservesParentsIncluded` | chrome/content/zotero/copyDialog.js:177-231 | both branches of `setExcluded` keep the invariant |
| `Bulk.SetExcludedEach` | chrome/content/zotero/copyDialog.js:236-238 | a run of excludes leaves every passed item excluded and touches only their families; a run of includes leaves every allowed passed item included and touches only their families |
| `Bulk.SetExcludedEachPreservesParentsIncluded` | chrome/content/zotero/copyDialog.js:236-238 | a run of `setExcluded` calls keeps the parent invariant |
| `Bulk.ToggleSelected` | chrome/content/zotero/copyDialog.js:233-240 | if an allowed selected item is excluded, all allowed selected items end up included, otherwise all end up excluded; only families of allowed items change |
| `Bulk.ToggleTwice` | chrome/content/zotero/copyDialog.js:233-240 | with the gate on, toggling a selection with an excluded item includes all of it, and toggling again excludes all of it |
| `Bulk.ToggleSelectedPreservesParentsIncluded` | chrome/content/zotero/copyDialog.js:233-240 | the toggle button keeps the parent invariant |
| `Bulk.UpdateItems` | chrome/content/zotero/copyDialog.js:308-313 | unchecking a category excludes all its items and adds nothing outside their families; checking it includes every allowed item, excludes nothing, and includes nothing outside the families of its items |
| `Bulk.CategoryExcludesDisallowed` | chrome/content/zotero/copyDialog.js:177-200 | the gate only refuses includes: unchecking a category excludes an item that is not allowed |
| `Bulk.UpdateItemsPreservesParentsIncluded` | chrome/content/zotero/copyDialog.js:308-313 | a category checkbox keeps the parent invariant |
| `Bulk.ToggleDependsOnSelectionOrder` | chrome/content/zotero/copyDialog.js:233-240 | with a family excluded and the gate on, toggling [attachment, parent] leaves the note excluded while [parent, attachment] includes it |
| `Bulk.LinkedItems` | chrome/content/zotero/copyDialog.js:83-85 | the handles of the linked keys, in key order; each one is the store's handle for its id |
| `Bulk.SetOverwrite` | chrome/content/zotero/copyDialog.js:82-88 | the gate takes the new value; turning it off excludes every linked item, turning it on includes every linked item; in both cases nothing outside the families of the linked items changes |
| `Bulk.SetOverwritePreservesParentsIncluded` | chrome/content/zotero/copyDialog.js:82-88 | the overwrite checkbox keeps the parent invariant |
| `Bulk.SetOverwriteDependsOnKeyOrder` | chrome/content/zotero/copyDialog.js:83-85 | with the same items, visiting an attachment before its parent leaves the parent's note excluded, while visiting the parent first includes it |
| `Linked.Put` | chrome/content/zotero/copyDialog.js:44-47 | `Map.set`: maps the key to the new value; an existing key keeps its place, a new key goes last; keys stay distinct |
| `Linked.Resolve` | chrome/content/zotero/copyDialog.js:44-78 | an id is indexed iff some lookup for it found a live counterpart; every entry points at that counterpart; the keys are the ids of the live lookups in lookup order, each at its first occurrence (`Linked.FirstLive`) |
| `Linked.FirstLiveOrder` | chrome/content/zotero/copyDialog.js:44-78 | a live lookup made before the first lookup of an id puts its key before that id's key |
| `DialogLoad.ChildNotes` | chrome/content/zotero/copyDialog.js:35-49 | exactly the stored notes of selected items that are not notes |
| `DialogLoad.ChildAttachments` | chrome/content/zotero/copyDialog.js:50-66 | exactly the stored attachments of the given kind of selected items that are not attachments |
| `DialogLoad.ChildProbes` | chrome/content/zotero/copyDialog.js:44-46 | one child lookup per listed id |
| `DialogLoad.Probes` | chrome/content/zotero/copyDialog.js:35-79 | a child lookup for every enumerated note and attachment, and a top-level lookup for every selected item |
| `DialogLoad.LoadExcluded` | chrome/content/zotero/copyDialog.js:27-66 | excluded at start iff pre-excluded by the caller, or an enumerated child of a category the caller did not include |
| `DialogLoad.LoadLinked` | chrome/content/zotero/copyDialog.js:35-79 | a child is linked iff its counterpart and the counterpart's parent are not deleted; a selected item is linked iff its counterpart is not deleted; the keys are in lookup order (children of a selected item before the item), each at its first occurrence |
| `DialogLoad.ChildKeyBeforeItemKey` | chrome/content/zotero/copyDialog.js:35-78 | a selected item's live child note or attachment is indexed before the item's own key, when the item is nobody's listed child and was not selected earlier |
| `DialogLoad.ExLoad` | chrome/content/zotero/copyDialog.js:35-78 | loading a parent with a linked attachment and an unlinked note indexes the attachment before the parent and excludes nothing |
| `DialogLoad.GateOffOnAfterLoad` | chrome/content/zotero/copyDialog.js:35-88 | in that freshly loaded dialog, turning overwrite off and on again leaves the note excluded |
| `DialogLoad.Load` | chrome/content/zotero/copyDialog.js:21-79 | the category lists hold exactly the enumerated children of each kind; the gate starts on |
| `DialogLoad.LoadKeysResolvable` | chrome/content/zotero/copyDialog.js:35-88 | every key of a loaded dialog's index is in the store under its own id, so the overwrite handler's lookups succeed |
| `DialogLoad.LoadPreservesParentsIncluded` | chrome/content/zotero/copyDialog.js:27-66 | category exclusion at load keeps the parent invariant when the caller's ids keep it |
| `Views.GetExtraRowData` | chrome/content/zotero/copyDialog.js:315-336 | skip iff excluded; otherwise merge for a linked attachment, overwrite for any other linked item, new when the row's own id is not linked; `contextRow` is the excluded flag |
| `Views.ExcludedFamilySkipped` | chrome/content/zotero/copyDialog.js:316-321 | after excluding an item, every row of its family shows skip |
| `Views.IncludedFamilyNotSkipped` | chrome/content/zotero/copyDialog.js:316-330 | after an include that is not refused, no row of the family shows skip |
| `Views.ParentLinkDoesNotClassify` | chrome/content/zotero/copyDialog.js:322-330 | a row linked only through its parent shows new |
| `Views.GateBypassedThroughParent` | chrome/content/zotero/copyDialog.js:207-229 | with the gate off, toggling an excluded parent that has no counterpart includes its linked attachment, although the toggle button skips that attachment and including it directly would be refused; the attachment then shows merge |
| `Views.UpdateCheckbox` | chrome/content/zotero/copyDialog.js:284-306 | disabled and unchecked iff no items; checked iff no item is excluded and allowed; indeterminate iff some are and some are not |
| `Views.OffCount` | chrome/content/zotero/copyDialog.js:285-301 | the count the checkbox compares is zero iff no item is excluded and allowed, full iff every item is |
| `Views.CategoryCheckbox` | chrome/content/zotero/copyDialog.js:266-279 | on a category's allowed members: empty gives disabled unchecked, none excluded gives checked, all excluded gives unchecked, a mix gives indeterminate |
| `Views.UpdateButtons` | chrome/content/zotero/copyDialog.js:247-264 | accept is disabled iff every top-level item is excluded; toggle is disabled iff no selected item is allowed; the label says "select" iff the allowed selection is empty or has an excluded item, and is plural iff it has more than one item |
| `Views.ToggleLabelPredictsToggle` | chrome/content/zotero/copyDialog.js:251-258 | a "select" label means the toggle includes the allowed selection, "deselect" means it excludes it |
| `PreferencePanes.BuiltInPanes` | chrome/content/zotero/xpcom/preferencePanes.js:30-79 | six built-in panes with distinct ids, each parent names another built-in pane, none belongs to a plugin |
| `PreferencePanes.Initial` | chrome/content/zotero/xpcom/preferencePanes.js:30-81 | the registry starts with the built-in panes and no plugin panes, and its ids are distinct |
| `PreferencePanes.Register` | chrome/content/zotero/xpcom/preferencePanes.js:104-129 | fails iff id, pluginID or src is missing or empty; fails iff the id is already a built-in or plugin pane id; on success leaves the built-in panes alone and appends exactly one plugin pane with the given fields, `defaultXUL` false, label falling back to the plugin name and image to the plugin icon |
| `PreferencePanes.RegisterPreservesValid` | chrome/content/zotero/xpcom/preferencePanes.js:108-125 | a successful registration keeps all pane ids distinct |
| `PreferencePanes.Unregister` | chrome/content/zotero/xpcom/preferencePanes.js:136-139 | removes every plugin pane with the id, keeps every other one, and leaves the built-in panes alone |
| `PreferencePanes.UnregisterKeepsOrder` | chrome/content/zotero/xpcom/preferencePanes.js:137 | unregistering acts on each part of the list separately, so the remaining panes keep their order |
| `PreferencePanes.UnregisterPreservesValid` | chrome/content/zotero/xpcom/preferencePanes.js:136-139 | unregistering keeps all pane ids distinct |
| `PreferencePanes.UnregisterUndoesRegister` | chrome/content/zotero/xpcom/preferencePanes.js:104-139 | unregistering the id of a pane just registered restores the registry |
| `PreferencePanes.ApplyPreservesValid` | chrome/content/zotero/xpcom/preferencePanes.js:104-139 | one register or unregister keeps all pane ids distinct; a failed register changes nothing |
| `PreferencePanes.RunPreservesValid` | chrome/content/zotero/xpcom/preferencePanes.js:104-139 | any sequence of registers and unregisters keeps all pane ids distinct |

## Left out

- DOM and window plumbing in `copyDialog.js` is not modelled: event listeners, `ItemTree.init` and tree rendering, `invalidateCacheAndRedraw`, popups, the `if (!this.itemsView) return` guard, localized strings (labels are enums here) and `onAccept`, which only copies state into `io`.
- `includeAnnotations` and `includeTags` are not modelled. The dialog only passes them through.
- The `getLinkedItem` lookups are asynchronous calls into the item store. The model takes their results as an input map. A lookup that rejects would abort `doLoad` in the code; the model does not cover that.
- `Zotero.Items.get` returning nothing for an unknown id is not modelled. `DialogLoad.Load` requires every listed child to be in the store. `Bulk.SetOverwrite` requires the same of every linked id. `DialogLoad.LoadKeysResolvable` proves this holds for every loaded dialog whose selected items are in the store.
- Item ids are plain integers in the model (`Items.Id`). The source tests for a parent with `item.parentItemID && …` (`copyDialog.js:217`, `340`), so a parent id of 0 would count as no parent. Zotero item ids are positive, so the model does not distinguish this case.
- Attachment link modes are collapsed into file attachments and linked-URL attachments. Zotero treats every attachment that is not a linked URL as a file attachment, so the `else if` at `copyDialog.js:61` is always taken.
- In `preferencePanes.js`, `_refreshPreferences` (window enumeration), `Zotero.debug` and `_ensureObserverAdded` are not modelled. The observer's `shutdown` callback depends on how the host binds `this`.
- The plugin name and icon lookups in `register` are not modelled as calls. They become the function parameters `nameOf` and `iconOf`.
- Trashed child notes and attachments, and annotation children, are not part of the model. The dialog never lists them (`getNotes(false)`, `getAttachments(false)`), so `Items.Catalog` leaves them out. `Items.WellFormed` and `Items.ParentsIncluded` therefore say nothing about a trashed child whose parent gets excluded.
- `PreferencePanes.Register` is modelled as one atomic step, but the source's `register` is `async`. When the label or image is missing, it awaits the plugin's name or icon after the duplicate-id check (`preferencePanes.js:108-111`) and before the push (`preferencePanes.js:125`). Two overlapping registrations of one id can then both pass the check. An `unregister` that runs during the await is undone by the later push. `RunPreservesValid` and `UnregisterUndoesRegister` hold only when each call finishes before the next one starts.
- `PreferencePanes.Register` models only string-valued option properties. A property counts as given when it is present and not empty, which is JavaScript truthiness for strings.
- `preferences/preferences.js`, `preferences/preferences_general.js`, `elements/sticky.js`, `platformKeys.js` and `standalone/basicViewer.js` are not part of this model. They hold DOM, layout, menu and preference I/O code.

=== FILE: bulk.dfy ===
/** The dialog's bulk actions, each a run of `setExcluded` calls: the
    toggle-selected button, the per-category checkboxes and the overwrite
    checkbox. */
module Bulk {
  import opened Wrappers
  import opened Items
  import opened Linked
  import opened Inclusion

  /** The ids a run of `setExcluded(x, excluded)` over `items` may touch. */
  function Reach(items: seq<Item>, excluded: bool): set<Id>
    decreases |items|
  {
    if |items| == 0 then {}
    else (if excluded then ExcludeCascade(items[0]) else IncludeCascade(items[0])) + Reach(items[1..], excluded)
  }

  /** `setExcluded(x, excluded)` for each `x` of `items`, in order. */
  function SetExcludedEach(d: Dialog, items: seq<Item>, excluded: bool): (r: Dialog)
    ensures r == d.(excluded := r.excluded)
    ensures excluded ==> d.excluded <= r.excluded <= d.excluded + Reach(items, true)
    ensures excluded ==> forall x | x in items :: x.id in r.excluded
    ensures !excluded ==> d.excluded - Reach(items, false) <= r.excluded <= d.excluded
    ensures !excluded ==> forall x | x in items && Allowed(d, x) :: x.id !in r.excluded
    decreases |items|
  {
    if |items| == 0 then d
    else
      var r := SetExcludedEach(SetExcluded(d, items[0], excluded), items[1..], excluded);
      assert forall x | x in items :: x == items[0] || x in items[1..];
      r
  }

  /** A run of `setExcluded` calls over registered items keeps every copied
      child's parent copied. */
  lemma {:induction false} SetExcludedEachPreservesParentsIncluded(c: Catalog, d: Dialog, items: seq<Item>, excluded: bool)
    requires WellFormed(c)
    requires forall x | x in items :: Registered(c, x)
    requires ParentsIncluded(c, d.excluded)
    ensures ParentsIncluded(c, SetExcludedEach(d, items, excluded).excluded)
    decreases |items|
  {
    if |items| > 0 {
      SetExcludedPreservesParentsIncluded(c, d, items[0], excluded);
      SetExcludedEachPreservesParentsIncluded(c, SetExcluded(d, items[0], excluded), items[1..], excluded);
    }
  }

  /** Some of `items` will not be copied. */
  predicate AnyExcluded(d: Dialog, items: seq<Item>) {
    exists x | x in items :: x.id in d.excluded
  }

  /** `toggleSelectedItems`: over the allowed part of the selection, include
      everything if anything is excluded, otherwise exclude everything.
      Nothing outside the families of the allowed items changes. */
  function ToggleSelected(d: Dialog, selected: seq<Item>): (r: Dialog)
    ensures r == d.(excluded := r.excluded)
    ensures var allowed := KeepAllowed(d, selected);
      AnyExcluded(d, allowed) ==>
        && d.excluded - Reach(allowed, false) <= r.excluded <= d.excluded
        && forall x | x in allowed :: x.id !in r.excluded
    ensures var allowed := KeepAllowed(d, selected);
      !AnyExcluded(d, allowed) ==>
        && d.excluded <= r.excluded <= d.excluded + Reach(allowed, true)
        && forall x | x in allowed :: x.id in r.excluded
  {
    var allowed := KeepAllowed(d, selected);
    SetExcludedEach(d, allowed, !AnyExcluded(d, allowed))
  }

  /** The toggle button keeps every copied child's parent copied. */
  lemma ToggleSelectedPreservesParentsIncluded(c: Catalog, d: Dialog, selected: seq<Item>)
    requires WellFormed(c)
    requires forall x | x in selected :: Registered(c, x)
    requires ParentsIncluded(c, d.excluded)
    ensures ParentsIncluded(c, ToggleSelected(d, selected).excluded)
  {
    var allowed := KeepAllowed(d, selected);
    SetExcludedEachPreservesParentsIncluded(c, d, allowed, !AnyExcluded(d, allowed));
  }

  /** With overwriting on, toggling a selection that has an excluded item
      includes all of it, and toggling again excludes all of it. */
  lemma ToggleTwice(d: Dialog, selected: seq<Item>)
    requires d.overwrite
    requires AnyExcluded(d, selected)
    ensures var once := ToggleSelected(d, selected);
      && (forall x | x in selected :: x.id !in once.excluded)
      && (forall x | x in selected :: x.id in ToggleSelected(once, selected).excluded)
  {
    var once := ToggleSelected(d, selected);
    assert !AnyExcluded(once, selected);
  }

  /** `_updateItems`: a category checkbox changed to `checked`; every item
      of the category, allowed or not, goes through `setExcluded`. */
  function UpdateItems(d: Dialog, category: seq<Item>, checked: bool): (r: Dialog)
    ensures r == d.(excluded := r.excluded)
    ensures !checked ==> d.excluded <= r.excluded <= d.excluded + Reach(category, true)
    ensures !checked ==> forall x | x in category :: x.id in r.excluded
    ensures checked ==> d.excluded - Reach(category, false) <= r.excluded <= d.excluded
    ensures checked ==> forall x | x in category && Allowed(d, x) :: x.id !in r.excluded
  {
    SetExcludedEach(d, category, !checked)
  }

  /** The category checkboxes keep every copied child's parent copied. */
  lemma UpdateItemsPreservesParentsIncluded(c: Catalog, d: Dialog, category: seq<Item>, checked: bool)
    requires WellFormed(c)
    requires forall x | x in category :: Registered(c, x)
    requires ParentsIncluded(c, d.excluded)
    ensures ParentsIncluded(c, UpdateItems(d, category, checked).excluded)
  {
    SetExcludedEachPreservesParentsIncluded(c, d, category, !checked);
  }

  /** The gate only refuses includes: with overwriting off, unchecking a
      category still excludes an item that is not allowed. */
  lemma CategoryExcludesDisallowed(d: Dialog, x: Item)
    requires !Allowed(d, x)
    ensures x.id in UpdateItems(d, [x], false).excluded
    ensures x.id !in d.excluded ==> UpdateItems(d, [x], false).excluded != d.excluded
  {
    assert x in [x];
  }

  /** The handles of the items that have a counterpart, in the index's key
      order: the order the overwrite checkbox visits them in. */
  function LinkedItems(d: Dialog, c: Catalog): (r: seq<Item>)
    requires forall k | k in d.linked.keys :: k in c && c[k].id == k
    ensures |r| == |d.linked.keys|
    ensures forall i | 0 <= i < |r| :: d.linked.keys[i] in c && r[i] == c[d.linked.keys[i]]
    ensures forall x | x in r :: Registered(c, x)
    ensures forall k | k in d.linked.keys :: c[k] in r
  {
    forall i | 0 <= i < |d.linked.keys| ensures d.linked.keys[i] in c {
      var k := d.linked.keys[i];
      assert k in d.linked.keys;
      assert k in c && c[k].id == k;
    }
    var r := ItemsOf(c, d.linked.keys);
    assert forall k | k in d.linked.keys :: c[k] in r by {
      forall k | k in d.linked.keys ensures c[k] in r {
        var i :| 0 <= i < |d.linked.keys| && d.linked.keys[i] == k;
        assert r[i] == c[k];
      }
    }
    assert forall x | x in r :: Registered(c, x) by {
      forall x | x in r ensures Registered(c, x) {
        var i :| 0 <= i < |r| && r[i] == x;
        var k := d.linked.keys[i];
        assert k in d.linked.keys;
        assert k in c && c[k].id == k && x == c[k];
      }
    }
    r
  }

  /** The overwrite checkbox changed to `checked`: the gate takes the new
      value, then every item with a counterpart goes through
      `setExcluded(x, !checked)`. Turning the gate off excludes them all;
      turning it on includes them all again. */
  function SetOverwrite(d: Dialog, c: Catalog, checked: bool): (r: Dialog)
    requires forall k | k in d.linked.keys :: k in c && c[k].id == k
    ensures r == d.(overwrite := checked, excluded := r.excluded)
    ensures !checked ==> d.excluded <= r.excluded <= d.excluded + Reach(LinkedItems(d, c), true)
    ensures !checked ==> forall k | k in d.linked.keys :: k in r.excluded
    ensures checked ==> d.excluded - Reach(LinkedItems(d, c), false) <= r.excluded <= d.excluded
    ensures checked ==> forall k | k in d.linked.keys :: k !in r.excluded
  {
    SetExcludedEach(d.(overwrite := checked), LinkedItems(d, c), !checked)
  }

  /** A small store for the examples: a parent with an attachment and a
      note, where the parent and the attachment have counterparts. */
  const ExParent := Item(1, Regular, None, [3], [2])
  const ExFile := Item(2, FileAttachment, Some(1), [], [])
  const ExNote := Item(3, Note, Some(1), [], [])
  const ExStore := map[1 := ExParent, 2 := ExFile, 3 := ExNote]

  /** The toggle's result depends on the order of the selection. With the
      whole family excluded, toggling [attachment, parent] includes the
      attachment with its parent, so the parent's own include is a no-op
      and the note stays excluded; toggling [parent, attachment] includes
      the note too. */
  lemma ToggleDependsOnSelectionOrder(d: Dialog)
    requires d.overwrite && d.excluded == {1, 2, 3}
    ensures 3 in ToggleSelected(d, [ExFile, ExParent]).excluded
    ensures 3 !in ToggleSelected(d, [ExParent, ExFile]).excluded
  {
    assert AnyExcluded(d, [ExFile, ExParent]) && AnyExcluded(d, [ExParent, ExFile]);
    assert [ExFile, ExParent][1..] == [ExParent] && [ExParent, ExFile][1..] == [ExFile];
    assert [ExParent][1..] == [] && [ExFile][1..] == [];
    var f := SetExcluded(d, ExFile, false);
    assert f.excluded == {3};
    assert ToggleSelected(d, [ExFile, ExParent]) == SetExcludedEach(f, [ExParent], false);
    assert SetExcludedEach(f, [ExParent], false) == SetExcluded(f, ExParent, false);
    var p := SetExcluded(d, ExParent, false);
    assert p.excluded == {};
    assert ToggleSelected(d, [ExParent, ExFile]) == SetExcludedEach(p, [ExFile], false);
  }

  /** Which items turning the gate on includes depends on the order of the
      index's keys. With the whole family of `ExStore` excluded, visiting
      the attachment first includes it with its parent, so the parent's own
      include is a no-op and the note stays excluded; visiting the parent
      first includes the note too. */
  lemma SetOverwriteDependsOnKeyOrder(d: Dialog)
    requires d.excluded == {1, 2, 3}
    requires d.linked.keys == [2, 1]
    ensures 3 in SetOverwrite(d, ExStore, true).excluded
    ensures 3 !in SetOverwrite(d.(linked := d.linked.(keys := [1, 2])), ExStore, true).excluded
  {
    AttachmentFirst(d);
    ParentFirst(d.(linked := d.linked.(keys := [1, 2])));
  }

  /** Turning the gate on with the attachment's key first. */
  lemma AttachmentFirst(d: Dialog)
    requires d.excluded == {1, 2, 3}
    requires d.linked.keys == [2, 1]
    ensures SetOverwrite(d, ExStore, true).excluded == {3}
  {
    assert LinkedItems(d, ExStore) == [ExFile, ExParent];
    var after := SetExcluded(d.(overwrite := true), ExFile, false);
    assert after.excluded == {3};
    assert [ExFile, ExParent][1..] == [ExParent] && [ExParent][1..] == [];
    assert SetOverwrite(d, ExStore, true) == SetExcludedEach(after, [ExParent], false);
    assert SetExcludedEach(after, [ExParent], false) == SetExcluded(after, ExParent, false);
  }

  /** Turning the gate on with the parent's key first. */
  lemma ParentFirst(d: Dialog)
    requires d.excluded == {1, 2, 3}
    requires d.linked.keys == [1, 2]
    ensures SetOverwrite(d, ExStore, true).excluded == {}
  {
    assert LinkedItems(d, ExStore) == [ExParent, ExFile];
    var first := SetExcluded(d.(overwrite := true), ExParent, false);
    assert first.excluded == {};
    assert [ExParent, ExFile][1..] == [ExFile];
    assert SetOverwrite(d, ExStore, true) == SetExcludedEach(first, [ExFile], false);
  }

  /** The overwrite checkbox keeps every copied child's parent copied. */
  lemma SetOverwritePreservesParentsIncluded(c: Catalog, d: Dialog, checked: bool)
    requires WellFormed(c)
    requires forall k | k in d.linked.keys :: k in c && c[k].id == k
    requires ParentsIncluded(c, d.excluded)
    ensures ParentsIncluded(c, SetOverwrite(d, c, checked).excluded)
  {
    SetExcludedEachPreservesParentsIncluded(c, d.(overwrite := checked), LinkedItems(d, c), !checked);
  }
}

=== FILE: inclusion.dfy ===
/** The copy dialog's state and `setExcluded`, the operation every user
    action goes through. */
module Inclusion {
  import opened Wrappers
  import opened Seqs
  import opened Items
  import opened Linked

  /** The dialog once loaded: the selected items, the child items of each
      category, the linked-item index, the overwrite gate and the ids that
      will not be copied. */
  datatype Dialog = Dialog(
    items: seq<Item>,
    childNotes: seq<Item>,
    childFiles: seq<Item>,
    childLinks: seq<Item>,
    linked: LinkedIndex,
    overwrite: bool,
    excluded: set<Id>)

  /** The item, or its parent, already has a counterpart in the target library. */
  predicate HasLinkedItem(d: Dialog, item: Item) {
    d.linked.Has(item.id) || (item.parentItemID.Some? && d.linked.Has(item.parentItemID.value))
  }

  /** The item is one `_keepAllowed` keeps, so the toggle button and the
      checkbox display consider it: overwriting is on, or neither the item
      nor its parent has a counterpart. Including an item that is not
      allowed is refused, but excluding it never is, so the category and
      overwrite checkboxes still exclude it. */
  predicate Allowed(d: Dialog, item: Item) {
    d.overwrite || !HasLinkedItem(d, item)
  }

  /** `_keepAllowed`: the allowed items, in order. */
  function KeepAllowed(d: Dialog, items: seq<Item>): (r: seq<Item>)
    ensures |r| <= |items|
    ensures forall x :: x in r <==> x in items && Allowed(d, x)
    ensures d.overwrite ==> r == items
  {
    if d.overwrite then items else Filter(items, x => !HasLinkedItem(d, x))
  }

  /** Filtering an already filtered list again changes nothing. */
  lemma KeepAllowedIdempotent(d: Dialog, items: seq<Item>)
    ensures KeepAllowed(d, KeepAllowed(d, items)) == KeepAllowed(d, items)
  {
    var once := KeepAllowed(d, items);
    if !d.overwrite {
      assert forall i | 0 <= i < |once| :: once[i] in once;
      FilterKeepsAll(once, x => !HasLinkedItem(d, x));
    }
  }

  /** `_keepAllowed` keeps order: on a joined list it filters each part
      separately, and it keeps one item exactly when that item is allowed. */
  lemma KeepAllowedConcat(d: Dialog, a: seq<Item>, b: seq<Item>)
    ensures KeepAllowed(d, a + b) == KeepAllowed(d, a) + KeepAllowed(d, b)
  {
    if !d.overwrite {
      FilterConcat(a, b, x => !HasLinkedItem(d, x));
    }
  }

  lemma KeepAllowedOne(d: Dialog, x: Item)
    ensures KeepAllowed(d, [x]) == if Allowed(d, x) then [x] else []
  {
    if !d.overwrite {
      assert [x][1..] == [];
    }
  }

  /** The ids excluding `item` marks: the item itself and, one level down,
      its attachments unless it is an attachment and its notes unless it is
      a note. */
  function ExcludeCascade(item: Item): set<Id> {
    {item.id}
      + (if item.IsAttachment() then {} else Elements(item.attachments))
      + (if item.IsNote() then {} else Elements(item.notes))
  }

  /** The ids including `item` unmarks: the same family, plus its parent. */
  function IncludeCascade(item: Item): set<Id> {
    ExcludeCascade(item) + (if item.parentItemID.Some? then {item.parentItemID.value} else {})
  }

  /** Marks each id in turn. */
  function AddIds(e: set<Id>, ids: seq<Id>): (r: set<Id>)
    ensures r == e + Elements(ids)
    decreases |ids|
  {
    if |ids| == 0 then e
    else
      assert Elements(ids) == {ids[0]} + Elements(ids[1..]);
      AddIds(e + {ids[0]}, ids[1..])
  }

  /** Unmarks each id in turn. */
  function RemoveIds(e: set<Id>, ids: seq<Id>): (r: set<Id>)
    ensures r == e - Elements(ids)
    decreases |ids|
  {
    if |ids| == 0 then e
    else
      assert Elements(ids) == {ids[0]} + Elements(ids[1..]);
      RemoveIds(e - {ids[0]}, ids[1..])
  }

  /** `setExcluded(item, true)`. */
  function Exclude(d: Dialog, item: Item): (r: Dialog)
    ensures item.id in d.excluded ==> r == d
    ensures item.id !in d.excluded ==> r == d.(excluded := d.excluded + ExcludeCascade(item))
  {
    if item.id in d.excluded then d
    else
      var e1 := d.excluded + {item.id};
      var e2 := if !item.IsAttachment() then AddIds(e1, item.attachments) else e1;
      var e3 := if !item.IsNote() then AddIds(e2, item.notes) else e2;
      d.(excluded := e3)
  }

  /** `setExcluded(item, false)`: refused while overwriting is off for an
      item that, or whose parent, has a counterpart. */
  function Include(d: Dialog, item: Item): (r: Dialog)
    ensures item.id !in d.excluded ==> r == d
    ensures !Allowed(d, item) ==> r == d
    ensures item.id in d.excluded && Allowed(d, item) ==> r == d.(excluded := d.excluded - IncludeCascade(item))
  {
    if item.id !in d.excluded then d
    else if !d.overwrite && HasLinkedItem(d, item) then d
    else
      var e1 := d.excluded - {item.id};
      var e2 := if item.parentItemID.Some? then e1 - {item.parentItemID.value} else e1;
      var e3 := if !item.IsAttachment() then RemoveIds(e2, item.attachments) else e2;
      var e4 := if !item.IsNote() then RemoveIds(e3, item.notes) else e3;
      d.(excluded := e4)
  }

  /** `setExcluded(item, excluded)`: only the exclusion set changes, and it
      only grows when excluding and only shrinks when including. */
  function SetExcluded(d: Dialog, item: Item, excluded: bool): (r: Dialog)
    ensures r == d.(excluded := r.excluded)
    ensures excluded ==> d.excluded <= r.excluded <= d.excluded + ExcludeCascade(item)
    ensures !excluded ==> d.excluded - IncludeCascade(item) <= r.excluded <= d.excluded
    ensures excluded ==> item.id in r.excluded
    ensures !excluded && Allowed(d, item) ==> item.id !in r.excluded
  {
    if excluded then Exclude(d, item) else Include(d, item)
  }

  /** Excluding twice is excluding once. */
  lemma ExcludeIdempotent(d: Dialog, item: Item)
    ensures Exclude(Exclude(d, item), item) == Exclude(d, item)
  {
  }

  /** Including twice is including once, whether or not the first was refused. */
  lemma IncludeIdempotent(d: Dialog, item: Item)
    ensures Include(Include(d, item), item) == Include(d, item)
  {
  }

  /** Excluding never touches the item's parent. */
  lemma ExcludeLeavesParent(c: Catalog, d: Dialog, item: Item)
    requires WellFormed(c) && Registered(c, item)
    requires item.parentItemID.Some?
    ensures var p := item.parentItemID.value;
      p in Exclude(d, item).excluded <==> p in d.excluded
  {
    var p := item.parentItemID.value;
    assert ParentListsChild(c, c[item.id]);
    if p in ExcludeCascade(item) {
      if p in item.notes || p in item.attachments {
        ListedChildHasParent(c, item, p);
      }
      assert false;
    }
  }

  /** Including a child leaves its siblings as they were. */
  lemma IncludeLeavesSiblings(c: Catalog, d: Dialog, item: Item, sibling: Item)
    requires WellFormed(c) && Registered(c, item) && Registered(c, sibling)
    requires item.parentItemID.Some? && sibling.parentItemID == item.parentItemID
    requires sibling.id != item.id
    ensures sibling.id in Include(d, item).excluded <==> sibling.id in d.excluded
  {
    if sibling.id in IncludeCascade(item) {
      assert ParentListsChild(c, c[item.id]);
      assert ParentListsChild(c, c[sibling.id]);
      if sibling.id in item.notes || sibling.id in item.attachments {
        ListedChildHasParent(c, item, sibling.id);
      }
      assert false;
    }
  }

  /** Excluding keeps every copied child's parent copied. */
  lemma ExcludePreservesParentsIncluded(c: Catalog, d: Dialog, item: Item)
    requires WellFormed(c) && Registered(c, item)
    requires ParentsIncluded(c, d.excluded)
    ensures ParentsIncluded(c, Exclude(d, item).excluded)
  {
    var e := Exclude(d, item).excluded;
    forall id | id in c && id !in e && c[id].parentItemID.Some?
      ensures c[id].parentItemID.value !in e
    {
      var p := c[id].parentItemID.value;
      assert ParentListsChild(c, c[id]);
      if p in item.notes || p in item.attachments {
        ListedChildHasParent(c, item, p);
        assert false;
      }
    }
  }

  /** Including keeps every copied child's parent copied. */
  lemma IncludePreservesParentsIncluded(c: Catalog, d: Dialog, item: Item)
    requires WellFormed(c) && Registered(c, item)
    requires ParentsIncluded(c, d.excluded)
    ensures ParentsIncluded(c, Include(d, item).excluded)
  {
    var e := Include(d, item).excluded;
    forall id | id in c && id !in e && c[id].parentItemID.Some?
      ensures c[id].parentItemID.value !in e
    {
      var p := c[id].parentItemID.value;
      assert ParentListsChild(c, c[id]);
      if id in item.notes || id in item.attachments {
        ListedChildHasParent(c, item, id);
      }
      if item.parentItemID.Some? {
        assert ParentListsChild(c, c[item.id]);
      }
    }
  }

  /** Both directions of `setExcluded` keep the invariant. */
  lemma SetExcludedPreservesParentsIncluded(c: Catalog, d: Dialog, item: Item, excluded: bool)
    requires WellFormed(c) && Registered(c, item)
    requires ParentsIncluded(c, d.excluded)
    ensures ParentsIncluded(c, SetExcluded(d, item, excluded).excluded)
  {
    if excluded {
      ExcludePreservesParentsIncluded(c, d, item);
    } else {
      IncludePreservesParentsIncluded(c, d, item);
    }
  }
}

=== FILE: items.dfy ===
/** The part of a Zotero item the copy dialog reads: its id, what kind of
    item it is, its parent and the ids of its direct child notes and
    attachments. */
module Items {
  import opened Wrappers

  /** Zotero item ids. */
  type Id = int

  /** A linked-URL attachment is the only kind of attachment that is not a
      file attachment. */
  datatype Kind = Regular | Note | FileAttachment | LinkAttachment

  /** An item handle; `notes` and `attachments` are what `getNotes(false)`
      and `getAttachments(false)` return: the child notes and attachments
      that are not in the trash. */
  datatype Item = Item(id: Id, kind: Kind, parentItemID: Option<Id>, notes: seq<Id>, attachments: seq<Id>)
  {
    predicate IsNote() {
      kind == Note
    }

    predicate IsAttachment() {
      kind == FileAttachment || kind == LinkAttachment
    }
  }

  /** The part of the item store the dialog reaches through
      `Zotero.Items.get`: the selected items, their parents and the
      children they list. Trashed children are not listed, so they are not
      part of it, and neither are annotations. */
  type Catalog = map<Id, Item>

  /** The handles `Zotero.Items.get` returns for `ids`, in order. */
  function ItemsOf(c: Catalog, ids: seq<Id>): (r: seq<Item>)
    requires forall i | 0 <= i < |ids| :: ids[i] in c
    ensures |r| == |ids|
    ensures forall i | 0 <= i < |ids| :: r[i] == c[ids[i]]
  {
    seq(|ids|, i requires 0 <= i < |ids| => c[ids[i]])
  }

  /** `item` is the handle the store returns for its own id. */
  predicate Registered(c: Catalog, item: Item) {
    item.id in c && c[item.id] == item
  }

  /** A child's parent is a top-level regular item that lists the child
      among its notes or attachments. */
  ghost predicate ParentListsChild(c: Catalog, child: Item)
    requires child.parentItemID.Some?
  {
    var p := child.parentItemID.value;
    && child.kind != Regular
    && p in c
    && c[p].kind == Regular
    && c[p].parentItemID.None?
    && (child.IsNote() ==> child.id in c[p].notes)
    && (child.IsAttachment() ==> child.id in c[p].attachments)
  }

  /** Every note and attachment an item lists is a stored child of that item. */
  ghost predicate ChildrenPointBack(c: Catalog, item: Item) {
    && (forall n | n in item.notes :: n in c && c[n].IsNote() && c[n].parentItemID == Some(item.id))
    && (forall a | a in item.attachments :: a in c && c[a].IsAttachment() && c[a].parentItemID == Some(item.id))
  }

  /** The shape of the dialog's view of the store: trees of depth at most
      two, whose parent links and child lists agree. Every child in the
      view is listed by its parent, which holds because the view leaves
      out trashed children and annotations. */
  ghost predicate WellFormed(c: Catalog) {
    && (forall id | id in c :: c[id].id == id)
    && (forall id | id in c && c[id].parentItemID.Some? :: ParentListsChild(c, c[id]))
    && (forall id | id in c :: ChildrenPointBack(c, c[id]))
  }

  /** The invariant the dialog's cascades keep: an item that will be copied
      never has a parent that will not. */
  ghost predicate ParentsIncluded(c: Catalog, excluded: set<Id>) {
    forall id | id in c && id !in excluded && c[id].parentItemID.Some? :: c[id].parentItemID.value !in excluded
  }

  /** In a well-formed store only parentless regular items have children. */
  lemma ListedChildHasParent(c: Catalog, item: Item, child: Id)
    requires WellFormed(c) && Registered(c, item)
    requires child in item.notes || child in item.attachments
    ensures child in c && c[child].parentItemID == Some(item.id)
    ensures item.kind == Regular && item.parentItemID.None?
  {
    assert ChildrenPointBack(c, c[item.id]);
    assert ParentListsChild(c, c[child]);
  }
}

=== FILE: linked_index.dfy ===
/** The index of items that already have a counterpart in the target
    library (`linkedItemsInTargetLibrary`), and how the dialog fills it. */
module Linked {
  import opened Items

  /** A JavaScript `Map` from item id to counterpart id: `keys` is the
      insertion order the map iterates in. */
  datatype LinkedIndex = LinkedIndex(keys: seq<Id>, target: map<Id, Id>)
  {
    ghost predicate Valid() {
      && (forall i, j | 0 <= i < j < |keys| :: keys[i] != keys[j])
      && (forall k :: k in target <==> k in keys)
    }

    predicate Has(id: Id) {
      id in target
    }
  }

  const Empty := LinkedIndex([], map[])

  /** `Map.prototype.set`: a new key goes to the end, an existing key keeps
      its place and takes the new value. */
  function Put(ix: LinkedIndex, k: Id, v: Id): (r: LinkedIndex)
    requires ix.Valid()
    ensures r.Valid()
    ensures r.target == ix.target[k := v]
    ensures r.keys == if k in ix.keys then ix.keys else ix.keys + [k]
  {
    if k in ix.target then ix.(target := ix.target[k := v])
    else LinkedIndex(ix.keys + [k], ix.target[k := v])
  }

  /** What `getLinkedItem(targetLibraryID, true)` found for an item: the
      counterpart's id, whether it is deleted, and whether it has a parent
      that is deleted. */
  datatype Counterpart = Counterpart(item: Id, deleted: bool, parentDeleted: bool)

  /** One lookup the dialog performs while loading: for a child note or
      attachment (`asChild`) or for a selected item. */
  datatype Probe = Probe(id: Id, asChild: bool)

  /** A lookup is kept when a counterpart exists and is not deleted; for
      children the counterpart's parent must not be deleted either. */
  predicate Live(cps: map<Id, Counterpart>, p: Probe) {
    && p.id in cps
    && !cps[p.id].deleted
    && !(p.asChild && cps[p.id].parentDeleted)
  }

  /** Every entry of the index points at the counterpart the lookup gave. */
  ghost predicate AgreesWith(ix: LinkedIndex, cps: map<Id, Counterpart>) {
    forall k | k in ix.target :: k in cps && ix.target[k] == cps[k].item
  }

  /** The key order a `Map` that already holds `seen` ends up with when the
      ids of the live lookups among `probes` are set in turn: each new id
      goes last, an id already present keeps its place. */
  function FirstLive(cps: map<Id, Counterpart>, probes: seq<Probe>, seen: seq<Id>): seq<Id>
    decreases |probes|
  {
    if |probes| == 0 then seen
    else
      var p := probes[0];
      FirstLive(cps, probes[1..], if Live(cps, p) && p.id !in seen then seen + [p.id] else seen)
  }

  /** Setting ids never moves the keys already there; a new key is the id
      of some live lookup, and every live lookup's id ends up a key. */
  lemma {:induction false} FirstLiveBounds(cps: map<Id, Counterpart>, probes: seq<Probe>, seen: seq<Id>)
    ensures seen <= FirstLive(cps, probes, seen)
    ensures forall k | k in FirstLive(cps, probes, seen) :: k in seen || exists p | p in probes :: p.id == k && Live(cps, p)
    ensures forall p | p in probes && Live(cps, p) :: p.id in FirstLive(cps, probes, seen)
    decreases |probes|
  {
    if |probes| > 0 {
      var p := probes[0];
      var next := if Live(cps, p) && p.id !in seen then seen + [p.id] else seen;
      var r := FirstLive(cps, probes[1..], next);
      FirstLiveBounds(cps, probes[1..], next);
      assert seen <= next <= r;
      assert forall k | k in next :: k in r by {
        forall k | k in next ensures k in r {
          var j :| 0 <= j < |next| && next[j] == k;
          assert r[j] == k;
        }
      }
      assert Live(cps, p) ==> p.id in next;
      assert forall q | q in probes :: q == p || q in probes[1..];
    }
  }

  /** Two runs of lookups in a row give the keys of the joined run. */
  lemma {:induction false} FirstLiveConcat(cps: map<Id, Counterpart>, a: seq<Probe>, b: seq<Probe>, seen: seq<Id>)
    ensures FirstLive(cps, a + b, seen) == FirstLive(cps, b, FirstLive(cps, a, seen))
    decreases |a|
  {
    if |a| > 0 {
      var p := a[0];
      var next := if Live(cps, p) && p.id !in seen then seen + [p.id] else seen;
      assert (a + b)[1..] == a[1..] + b;
      FirstLiveConcat(cps, a[1..], b, next);
    } else {
      assert a + b == b;
    }
  }

  /** A live lookup made before the first lookup of `id` puts its key
      before `id`'s key. */
  lemma FirstLiveOrder(cps: map<Id, Counterpart>, a: seq<Probe>, q: Probe, rest: seq<Probe>, k: Id)
    requires exists p | p in a :: p.id == k && Live(cps, p)
    requires forall p | p in a :: p.id != q.id
    requires Live(cps, q)
    ensures var keys := FirstLive(cps, a + ([q] + rest), []);
      exists j1, j2 | 0 <= j1 < j2 < |keys| :: keys[j1] == k && keys[j2] == q.id
  {
    FirstLiveConcat(cps, a, [q] + rest, []);
    var s := FirstLive(cps, a, []);
    FirstLiveBounds(cps, a, []);
    assert k in s;
    assert q.id !in s;
    var t := s + [q.id];
    assert ([q] + rest)[1..] == rest;
    assert FirstLive(cps, [q] + rest, s) == FirstLive(cps, rest, t);
    FirstLiveBounds(cps, rest, t);
    var keys := FirstLive(cps, a + ([q] + rest), []);
    assert t <= keys;
    var j1 :| 0 <= j1 < |s| && s[j1] == k;
    assert keys[j1] == k && keys[|s|] == q.id;
  }

  /** Runs the lookups in order, putting every live counterpart. */
  function Resolve(ix: LinkedIndex, probes: seq<Probe>, cps: map<Id, Counterpart>): (r: LinkedIndex)
    requires ix.Valid()
    requires AgreesWith(ix, cps)
    ensures r.Valid()
    ensures AgreesWith(r, cps)
    ensures ix.keys <= r.keys
    ensures r.keys == FirstLive(cps, probes, ix.keys)
    ensures forall k :: k in r.target <==> k in ix.target || exists p | p in probes :: p.id == k && Live(cps, p)
    decreases |probes|
  {
    if |probes| == 0 then ix
    else
      var p := probes[0];
      var next := if Live(cps, p) then Put(ix, p.id, cps[p.id].item) else ix;
      var r := Resolve(next, probes[1..], cps);
      assert forall q | q in probes :: q == p || q in probes[1..];
      r
  }
}

=== FILE: load.dfy ===
/** What the dialog computes once, when it opens (`doLoad`): the child
    items of each category, the ids excluded from the start and the index
    of items that already have a counterpart in the target library. */
module DialogLoad {
  import opened Wrappers
  import opened Seqs
  import opened Items
  import opened Linked
  import opened Inclusion
  import opened Bulk

  /** What the caller passes in `io`: the selected items, ids to exclude
      from the start, and whether notes, file attachments and link
      attachments are included by default. */
  datatype LoadOptions = LoadOptions(
    items: seq<Item>,
    excludedItemIDs: set<Id>,
    includeNotes: bool,
    includeFiles: bool,
    includeLinks: bool)

  /** Every child the item lists can be looked up in the store. */
  ghost predicate Resolvable(c: Catalog, x: Item) {
    && (forall id | id in x.notes :: id in c && c[id].id == id)
    && (forall id | id in x.attachments :: id in c && c[id].id == id)
  }

  /** Every child a selected item lists can be looked up in the store. */
  ghost predicate ChildrenResolvable(c: Catalog, items: seq<Item>) {
    forall x | x in items :: Resolvable(c, x)
  }

  /** `id` is a child note the dialog enumerates: a note of a selected item
      that is not itself a note. */
  ghost predicate ListsNote(items: seq<Item>, id: Id) {
    exists x | x in items :: !x.IsNote() && id in x.notes
  }

  /** `id` is a child attachment the dialog enumerates: an attachment of a
      selected item that is not itself an attachment. */
  ghost predicate ListsAttachment(items: seq<Item>, id: Id) {
    exists x | x in items :: !x.IsAttachment() && id in x.attachments
  }

  /** `childNoteItems`. */
  function ChildNotes(c: Catalog, items: seq<Item>): (r: seq<Item>)
    requires ChildrenResolvable(c, items)
    ensures forall x :: x in r <==> Registered(c, x) && ListsNote(items, x.id)
    decreases |items|
  {
    if |items| == 0 then []
    else
      var x := items[0];
      forall i | 0 <= i < |x.notes| ensures x.notes[i] in c {
        assert x in items;
        assert Resolvable(c, x);
        var id := x.notes[i];
        assert id in x.notes;
      }
      var own := if !x.IsNote() then ItemsOf(c, x.notes) else [];
      var r := own + ChildNotes(c, items[1..]);
      assert forall y | y in items :: y == x || y in items[1..];
      forall y | y in own ensures Registered(c, y) && ListsNote(items, y.id) {
        var i :| 0 <= i < |own| && own[i] == y;
        var id := x.notes[i];
        assert x in items;
        assert Resolvable(c, x);
        assert id in x.notes;
      }
      forall y | Registered(c, y) && ListsNote(items, y.id) ensures y in r {
        if !x.IsNote() && y.id in x.notes {
          var i :| 0 <= i < |x.notes| && x.notes[i] == y.id;
          assert own[i] == y;
        } else {
          assert ListsNote(items[1..], y.id);
        }
      }
      r
  }

  /** `childFileAttachmentItems` (for `FileAttachment`) and
      `childLinkAttachmentItems` (for `LinkAttachment`). */
  function ChildAttachments(c: Catalog, items: seq<Item>, kind: Kind): (r: seq<Item>)
    requires ChildrenResolvable(c, items)
    ensures forall x :: x in r <==> Registered(c, x) && x.kind == kind && ListsAttachment(items, x.id)
    decreases |items|
  {
    if |items| == 0 then []
    else
      var x := items[0];
      forall i | 0 <= i < |x.attachments| ensures x.attachments[i] in c {
        assert x in items;
        assert Resolvable(c, x);
        var id := x.attachments[i];
        assert id in x.attachments;
      }
      var all := if !x.IsAttachment() then ItemsOf(c, x.attachments) else [];
      var own := Filter(all, (y: Item) => y.kind == kind);
      var r := own + ChildAttachments(c, items[1..], kind);
      assert forall y | y in items :: y == x || y in items[1..];
      forall y | y in all ensures Registered(c, y) && ListsAttachment(items, y.id) {
        var i :| 0 <= i < |all| && all[i] == y;
        var id := x.attachments[i];
        assert x in items;
        assert Resolvable(c, x);
        assert id in x.attachments;
      }
      forall y | Registered(c, y) && y.kind == kind && ListsAttachment(items, y.id) ensures y in r {
        if !x.IsAttachment() && y.id in x.attachments {
          var i :| 0 <= i < |x.attachments| && x.attachments[i] == y.id;
          assert all[i] == y;
        } else {
          assert ListsAttachment(items[1..], y.id);
        }
      }
      r
  }

  /** The ids of some items. */
  function IdsOf(items: seq<Item>): set<Id> {
    set x | x in items :: x.id
  }

  /** The lookups one selected item triggers, in the order it triggers them:
      its notes unless it is a note, its attachments unless it is an
      attachment, then the item itself. */
  function ItemProbes(x: Item): (r: seq<Probe>)
    ensures forall p: Probe :: p in r <==>
      || (p.asChild && ((!x.IsNote() && p.id in x.notes) || (!x.IsAttachment() && p.id in x.attachments)))
      || p == Probe(x.id, false)
  {
    (if !x.IsNote() then ChildProbes(x.notes) else [])
      + (if !x.IsAttachment() then ChildProbes(x.attachments) else [])
      + [Probe(x.id, false)]
  }

  function ChildProbes(ids: seq<Id>): (r: seq<Probe>)
    ensures forall p: Probe :: p in r <==> p.asChild && p.id in ids
  {
    var r := seq(|ids|, i requires 0 <= i < |ids| => Probe(ids[i], true));
    assert forall p: Probe | p.asChild && p.id in ids :: p in r by {
      forall p: Probe | p.asChild && p.id in ids ensures p in r {
        var i :| 0 <= i < |ids| && ids[i] == p.id;
        assert r[i] == p;
      }
    }
    r
  }

  /** Every lookup `doLoad` performs, in order. */
  function Probes(items: seq<Item>): (r: seq<Probe>)
    ensures forall p: Probe :: p in r <==>
      || (p.asChild && (ListsNote(items, p.id) || ListsAttachment(items, p.id)))
      || (!p.asChild && exists x | x in items :: x.id == p.id)
    decreases |items|
  {
    if |items| == 0 then []
    else
      var r := ItemProbes(items[0]) + Probes(items[1..]);
      ListsSplit(items);
      r
  }

  /** `id` is the id of a selected item. */
  ghost predicate Selects(items: seq<Item>, id: Id) {
    exists x | x in items :: x.id == id
  }

  /** What the first selected item and the rest each enumerate. */
  lemma ListsSplit(items: seq<Item>)
    requires |items| > 0
    ensures forall id :: ListsNote(items, id) <==>
      (!items[0].IsNote() && id in items[0].notes) || ListsNote(items[1..], id)
    ensures forall id :: ListsAttachment(items, id) <==>
      (!items[0].IsAttachment() && id in items[0].attachments) || ListsAttachment(items[1..], id)
    ensures forall id :: Selects(items, id) <==> items[0].id == id || Selects(items[1..], id)
  {
    assert forall y | y in items :: y == items[0] || y in items[1..];
  }

  /** The exclusion set `doLoad` starts with: the caller's ids, plus every
      enumerated child of a category the caller did not include. */
  function LoadExcluded(c: Catalog, opts: LoadOptions): (e: set<Id>)
    requires ChildrenResolvable(c, opts.items)
    ensures forall id :: id in e <==>
      || id in opts.excludedItemIDs
      || (!opts.includeNotes && ListsNote(opts.items, id))
      || (!opts.includeFiles && id in c && c[id].kind == FileAttachment && ListsAttachment(opts.items, id))
      || (!opts.includeLinks && id in c && c[id].kind == LinkAttachment && ListsAttachment(opts.items, id))
  {
    var notes := ChildNotes(c, opts.items);
    var files := ChildAttachments(c, opts.items, FileAttachment);
    var links := ChildAttachments(c, opts.items, LinkAttachment);
    ListedIdsResolve(c, opts.items);
    assert forall id | ListsNote(opts.items, id) :: c[id] in notes;
    assert forall id | id in c && ListsAttachment(opts.items, id) && c[id].kind == FileAttachment :: c[id] in files;
    assert forall id | id in c && ListsAttachment(opts.items, id) && c[id].kind == LinkAttachment :: c[id] in links;
    opts.excludedItemIDs
      + (if opts.includeNotes then {} else IdsOf(notes))
      + (if opts.includeFiles then {} else IdsOf(files))
      + (if opts.includeLinks then {} else IdsOf(links))
  }

  /** `linkedItemsInTargetLibrary` as `doLoad` fills it: an enumerated child
      is indexed when its counterpart and the counterpart's parent are not
      deleted, a selected item when its counterpart is not deleted. */
  function LoadLinked(items: seq<Item>, cps: map<Id, Counterpart>): (ix: LinkedIndex)
    ensures ix.Valid()
    ensures AgreesWith(ix, cps)
    ensures ix.keys == FirstLive(cps, Probes(items), [])
    ensures forall k :: ix.Has(k) <==>
      || ((ListsNote(items, k) || ListsAttachment(items, k)) && Live(cps, Probe(k, true)))
      || ((exists x | x in items :: x.id == k) && Live(cps, Probe(k, false)))
  {
    var probes := Probes(items);
    var ix := Resolve(Empty, probes, cps);
    forall k | ix.Has(k)
      ensures || ((ListsNote(items, k) || ListsAttachment(items, k)) && Live(cps, Probe(k, true)))
              || ((exists x | x in items :: x.id == k) && Live(cps, Probe(k, false)))
    {
      var p :| p in probes && p.id == k && Live(cps, p);
    }
    forall k | || ((ListsNote(items, k) || ListsAttachment(items, k)) && Live(cps, Probe(k, true)))
               || ((exists x | x in items :: x.id == k) && Live(cps, Probe(k, false)))
      ensures ix.Has(k)
    {
      if (ListsNote(items, k) || ListsAttachment(items, k)) && Live(cps, Probe(k, true)) {
        assert Probe(k, true) in probes;
      } else {
        assert Probe(k, false) in probes;
      }
    }
    ix
  }

  /** The lookups of a run of selected items are those of its parts, in order. */
  lemma {:induction false} ProbesConcat(a: seq<Item>, b: seq<Item>)
    ensures Probes(a + b) == Probes(a) + Probes(b)
    decreases |a|
  {
    if |a| > 0 {
      var head, tail := ItemProbes(a[0]), a[1..];
      assert (a + b)[0] == a[0];
      assert (a + b)[1..] == tail + b;
      ProbesConcat(tail, b);
      Assoc(head, Probes(tail), Probes(b));
    } else {
      assert a + b == b;
    }
  }

  /** The lookups of the selected item at position `i` sit between those
      of the items before it and those of the items after it. */
  lemma ProbesAround(items: seq<Item>, i: nat)
    requires i < |items|
    ensures Probes(items) == Probes(items[..i]) + ItemProbes(items[i]) + Probes(items[i + 1..])
    ensures Probes(items) == (Probes(items[..i]) + OwnChildProbes(items[i])) + ([Probe(items[i].id, false)] + Probes(items[i + 1..]))
  {
    var before, one, after := items[..i], [items[i]], items[i + 1..];
    SplitAt(items, i);
    ProbesConcat(before + one, after);
    ProbesConcat(before, one);
    ProbesOne(items[i]);
    Regroup(Probes(before), OwnChildProbes(items[i]), [Probe(items[i].id, false)], Probes(after));
  }

  /** One selected item triggers its own lookups and no others. */
  lemma ProbesOne(x: Item)
    ensures Probes([x]) == ItemProbes(x)
  {
    assert [x][1..] == [];
  }

  /** The child lookups one selected item triggers, before its own. */
  function OwnChildProbes(x: Item): (r: seq<Probe>)
    ensures ItemProbes(x) == r + [Probe(x.id, false)]
    ensures forall p | p in r :: p.asChild && (p.id in x.notes || p.id in x.attachments)
  {
    (if !x.IsNote() then ChildProbes(x.notes) else [])
      + (if !x.IsAttachment() then ChildProbes(x.attachments) else [])
  }

  /** An item that nobody lists as a child, and that was not selected
      earlier, is not looked up before its own top-level lookup. */
  lemma NotLookedUpEarlier(items: seq<Item>, i: nat)
    requires i < |items|
    requires forall j | 0 <= j < |items| :: items[i].id !in items[j].notes && items[i].id !in items[j].attachments
    requires forall j | 0 <= j < i :: items[j].id != items[i].id
    ensures forall p | p in Probes(items[..i]) + OwnChildProbes(items[i]) :: p.id != items[i].id
  {
    var x := items[i];
    var before := items[..i];
    forall p | p in Probes(before) + OwnChildProbes(x) ensures p.id != x.id {
      if p in Probes(before) {
        if p.asChild {
          assert ListsNote(before, p.id) || ListsAttachment(before, p.id);
          if ListsNote(before, p.id) {
            var y :| y in before && !y.IsNote() && p.id in y.notes;
          } else {
            var y :| y in before && !y.IsAttachment() && p.id in y.attachments;
          }
        } else {
          var y :| y in before && y.id == p.id;
        }
      }
    }
  }

  /** The key order `doLoad` leaves: a selected item's live child notes and
      attachments come before the item's own key, when the item is nobody's
      listed child and was not selected earlier. */
  lemma ChildKeyBeforeItemKey(items: seq<Item>, cps: map<Id, Counterpart>, i: nat, k: Id)
    requires i < |items|
    requires (!items[i].IsNote() && k in items[i].notes) || (!items[i].IsAttachment() && k in items[i].attachments)
    requires Live(cps, Probe(k, true)) && Live(cps, Probe(items[i].id, false))
    requires forall j | 0 <= j < |items| :: items[i].id !in items[j].notes && items[i].id !in items[j].attachments
    requires forall j | 0 <= j < i :: items[j].id != items[i].id
    ensures var keys := LoadLinked(items, cps).keys;
      exists j1, j2 | 0 <= j1 < j2 < |keys| :: keys[j1] == k && keys[j2] == items[i].id
  {
    var x := items[i];
    ProbesAround(items, i);
    NotLookedUpEarlier(items, i);
    var a := Probes(items[..i]) + OwnChildProbes(x);
    assert Probe(k, true) in a by {
      if !x.IsNote() && k in x.notes {
        assert Probe(k, true) in ChildProbes(x.notes);
      } else {
        assert Probe(k, true) in ChildProbes(x.attachments);
      }
    }
    FirstLiveOrder(cps, a, Probe(x.id, false), Probes(items[i + 1..]), k);
  }

  /** The counterparts the parent and the attachment of `Bulk.ExStore`
      have; the note has none. */
  const ExCounterparts := map[1 := Counterpart(10, false, false), 2 := Counterpart(20, false, false)]

  /** Loading the parent alone indexes the attachment before the parent. */
  lemma ExLoad()
    ensures ChildrenResolvable(ExStore, [ExParent])
    ensures var d := Load(ExStore, LoadOptions([ExParent], {}, true, true, true), ExCounterparts);
      d.excluded == {} && d.linked.keys == [2, 1]
  {
    assert Resolvable(ExStore, ExParent);
    ExProbes();
    var cps := ExCounterparts;
    var p3, p2, p1 := Probe(3, true), Probe(2, true), Probe(1, false);
    assert [p3, p2, p1][1..] == [p2, p1] && [p2, p1][1..] == [p1] && [p1][1..] == [];
    assert !Live(cps, p3) && Live(cps, p2) && Live(cps, p1);
    assert [] + [2] == [2] && [2] + [1] == [2, 1];
    assert FirstLive(cps, [p3, p2, p1], []) == FirstLive(cps, [p2, p1], []);
    assert FirstLive(cps, [p2, p1], []) == FirstLive(cps, [p1], [2]);
    assert FirstLive(cps, [p1], [2]) == [2, 1];
  }

  /** The lookups loading the parent alone makes. */
  lemma ExProbes()
    ensures Probes([ExParent]) == [Probe(3, true), Probe(2, true), Probe(1, false)]
  {
    ProbesOne(ExParent);
  }

  /** With the attachment's key first, turning overwriting off excludes
      the whole family. */
  lemma ExGateOff(d: Dialog)
    requires d.linked.keys == [2, 1] && d.excluded == {}
    ensures SetOverwrite(d, ExStore, false) == d.(overwrite := false, excluded := {1, 2, 3})
  {
    assert LinkedItems(d, ExStore) == [ExFile, ExParent];
    var d1 := SetExcluded(d.(overwrite := false), ExFile, true);
    assert d1.excluded == {2};
    assert SetOverwrite(d, ExStore, false) == SetExcludedEach(d1, [ExParent], true);
    assert [ExParent][1..] == [];
  }

  /** With the attachment's key first and the family excluded, turning
      overwriting on includes the attachment and the parent but not the
      note: including the attachment also includes its parent, so the
      parent's own include is a no-op. */
  lemma ExGateOn(d: Dialog)
    requires d.linked.keys == [2, 1] && d.excluded == {1, 2, 3}
    ensures SetOverwrite(d, ExStore, true).excluded == {3}
  {
    assert LinkedItems(d, ExStore) == [ExFile, ExParent];
    var d1 := SetExcluded(d.(overwrite := true), ExFile, false);
    assert d1.excluded == {3};
    assert SetOverwrite(d, ExStore, true) == SetExcludedEach(d1, [ExParent], false);
    assert [ExParent][1..] == [];
  }

  /** Because `doLoad` indexes an item's attachments before the item, a
      freshly loaded dialog does not return to its starting state when
      overwriting is turned off and on again: the parent's note, which has
      no counterpart, ends up excluded. */
  lemma GateOffOnAfterLoad()
    ensures ChildrenResolvable(ExStore, [ExParent])
    ensures var d := Load(ExStore, LoadOptions([ExParent], {}, true, true, true), ExCounterparts);
      && d.excluded == {}
      && d.linked.keys == [2, 1]
      && SetOverwrite(SetOverwrite(d, ExStore, false), ExStore, true).excluded == {3}
  {
    ExLoad();
    var d := Load(ExStore, LoadOptions([ExParent], {}, true, true, true), ExCounterparts);
    ExGateOff(d);
    ExGateOn(SetOverwrite(d, ExStore, false));
  }

  /** `doLoad` up to the handlers it installs: the category lists, the
      exclusion set and the linked-item index, with overwriting enabled. */
  function Load(c: Catalog, opts: LoadOptions, cps: map<Id, Counterpart>): (d: Dialog)
    requires ChildrenResolvable(c, opts.items)
    ensures d.items == opts.items
    ensures d.overwrite
    ensures forall x :: x in d.childNotes <==> Registered(c, x) && ListsNote(opts.items, x.id)
    ensures forall x :: x in d.childFiles <==> Registered(c, x) && x.kind == FileAttachment && ListsAttachment(opts.items, x.id)
    ensures forall x :: x in d.childLinks <==> Registered(c, x) && x.kind == LinkAttachment && ListsAttachment(opts.items, x.id)
    ensures d.excluded == LoadExcluded(c, opts)
    ensures d.linked == LoadLinked(opts.items, cps)
  {
    Dialog(
      opts.items,
      ChildNotes(c, opts.items),
      ChildAttachments(c, opts.items, FileAttachment),
      ChildAttachments(c, opts.items, LinkAttachment),
      LoadLinked(opts.items, cps),
      true,
      LoadExcluded(c, opts))
  }

  /** Every key of a loaded dialog's index is in the store under its own
      id, which is what the overwrite checkbox needs to look the keys up. */
  lemma LoadKeysResolvable(c: Catalog, opts: LoadOptions, cps: map<Id, Counterpart>)
    requires ChildrenResolvable(c, opts.items)
    requires forall x | x in opts.items :: Registered(c, x)
    ensures forall k | k in Load(c, opts, cps).linked.keys :: k in c && c[k].id == k
  {
    ListedIdsResolve(c, opts.items);
    var ix := Load(c, opts, cps).linked;
    forall k | k in ix.keys ensures k in c && c[k].id == k {
      assert ix.Has(k);
      if !(ListsNote(opts.items, k) || ListsAttachment(opts.items, k)) {
        var x :| x in opts.items && x.id == k;
        assert Registered(c, x);
      }
    }
  }

  /** Every enumerated child id is in the store under its own id. */
  lemma ListedIdsResolve(c: Catalog, items: seq<Item>)
    requires ChildrenResolvable(c, items)
    ensures forall id | ListsNote(items, id) || ListsAttachment(items, id) :: id in c && c[id].id == id
  {
    forall id | ListsNote(items, id) || ListsAttachment(items, id) ensures id in c && c[id].id == id {
      var x :| x in items && (id in x.notes || id in x.attachments);
      assert Resolvable(c, x);
    }
  }

  /** Loading keeps the parent invariant when the caller's pre-excluded ids
      keep it: category exclusion only marks children, and children are
      nobody's parent. */
  lemma LoadPreservesParentsIncluded(c: Catalog, opts: LoadOptions, cps: map<Id, Counterpart>)
    requires WellFormed(c)
    requires ChildrenResolvable(c, opts.items)
    requires forall x | x in opts.items :: Registered(c, x)
    requires ParentsIncluded(c, opts.excludedItemIDs)
    ensures ParentsIncluded(c, Load(c, opts, cps).excluded)
  {
    var e := Load(c, opts, cps).excluded;
    forall id | id in c && id !in e && c[id].parentItemID.Some?
      ensures c[id].parentItemID.value !in e
    {
      var p := c[id].parentItemID.value;
      assert ParentListsChild(c, c[id]);
      if ListsNote(opts.items, p) || ListsAttachment(opts.items, p) {
        var x :| x in opts.items && (p in x.notes || p in x.attachments);
        ListedChildHasParent(c, x, p);
        assert false;
      }
    }
  }
}

=== FILE: preference_panes.dfy ===
/** The registry of preference panes: the built-in panes plus the panes
    plugins register, each under an id no other pane has. */
module PreferencePanes {
  import opened Wrappers
  import opened Seqs

  /** A localization key for built-in panes, a ready-made label for plugin
      panes. */
  datatype PaneLabel = LocalizedLabel(key: string) | RawLabel(text: string)

  datatype Pane = Pane(
    id: string,
    pluginID: Option<string>,
    parent: Option<string>,
    paneLabel: PaneLabel,
    image: Option<string>,
    src: string,
    extraDTD: Option<seq<string>>,
    scripts: Option<seq<string>>,
    defaultXUL: bool)

  /** No two panes share an id. */
  ghost predicate DistinctIds(panes: seq<Pane>) {
    forall i, j | 0 <= i < j < |panes| :: panes[i].id != panes[j].id
  }

  /** Some pane has id `id`. */
  predicate HasId(panes: seq<Pane>, id: string) {
    exists p | p in panes :: p.id == id
  }

  /** `builtInPanes`: general, sync, export, cite, advanced, and the
      reset-sync subpane of the sync pane. Every id is distinct, every
      parent names another built-in pane, and none belongs to a plugin. */
  function BuiltInPanes(): (r: seq<Pane>)
    ensures |r| == 6
    ensures DistinctIds(r)
    ensures forall i | 0 <= i < |r| && r[i].parent.Some? :: exists j | 0 <= j < |r| :: j != i && r[j].id == r[i].parent.value
    ensures forall p | p in r :: p.defaultXUL && p.pluginID.None?
  {
    var r := [
      Pane("zotero-prefpane-general", None, None, LocalizedLabel("zotero.preferences.prefpane.general"),
        Some("chrome://zotero/skin/prefs-general.png"),
        "chrome://zotero/content/preferences/preferences_general.xhtml", None,
        Some(["chrome://zotero/content/preferences/preferences_general.js"]), true),
      Pane("zotero-prefpane-sync", None, None, LocalizedLabel("zotero.preferences.prefpane.sync"),
        Some("chrome://zotero/skin/prefs-sync.png"),
        "chrome://zotero/content/preferences/preferences_sync.xhtml", None,
        Some(["chrome://zotero/content/preferences/preferences_sync.js"]), true),
      Pane("zotero-prefpane-export", None, None, LocalizedLabel("zotero.preferences.prefpane.export"),
        Some("chrome://zotero/skin/prefs-export.png"),
        "chrome://zotero/content/preferences/preferences_export.xhtml", None,
        Some(["chrome://zotero/content/preferences/preferences_export.js"]), true),
      Pane("zotero-prefpane-cite", None, None, LocalizedLabel("zotero.preferences.prefpane.cite"),
        Some("chrome://zotero/skin/prefs-styles.png"),
        "chrome://zotero/content/preferences/preferences_cite.xhtml", None,
        Some(["chrome://zotero/content/preferences/preferences_cite.js"]), true),
      Pane("zotero-prefpane-advanced", None, None, LocalizedLabel("zotero.preferences.prefpane.advanced"),
        Some("chrome://zotero/skin/prefs-advanced.png"),
        "chrome://zotero/content/preferences/preferences_advanced.xhtml", None,
        Some(["chrome://zotero/content/preferences/preferences_advanced.js"]), true),
      Pane("zotero-subpane-reset-sync", None, Some("zotero-prefpane-sync"), LocalizedLabel("zotero.preferences.subpane.resetSync"),
        None,
        "chrome://zotero/content/preferences/preferences_sync_reset.xhtml", None,
        Some(["chrome://zotero/content/preferences/preferences_sync.js"]), true)
    ];
    assert r[5].parent.value == r[1].id;
    r
  }

  /** Ids are distinct across a concatenation exactly when they are within
      each part and no id occurs in both. */
  lemma DistinctConcat(a: seq<Pane>, b: seq<Pane>)
    ensures DistinctIds(a + b) <==>
      DistinctIds(a) && DistinctIds(b) && forall p, q | p in a && q in b :: p.id != q.id
  {
    var ab := a + b;
    if DistinctIds(ab) {
      forall i, j | 0 <= i < j < |a| ensures a[i].id != a[j].id {
        assert ab[i] == a[i] && ab[j] == a[j];
      }
      forall i, j | 0 <= i < j < |b| ensures b[i].id != b[j].id {
        assert ab[|a| + i] == b[i] && ab[|a| + j] == b[j];
      }
      forall p, q | p in a && q in b ensures p.id != q.id {
        var i :| 0 <= i < |a| && a[i] == p;
        var j :| 0 <= j < |b| && b[j] == q;
        assert ab[i] == p && ab[|a| + j] == q;
      }
    }
    if DistinctIds(a) && DistinctIds(b) && forall p, q | p in a && q in b :: p.id != q.id {
      forall i, j | 0 <= i < j < |ab| ensures ab[i].id != ab[j].id {
        if j < |a| {
          assert ab[i] == a[i] && ab[j] == a[j];
        } else if |a| <= i {
          assert ab[i] == b[i - |a|] && ab[j] == b[j - |a|];
        } else {
          assert ab[i] in a && ab[j] in b;
        }
      }
    }
  }

  /** Dropping panes keeps ids distinct. */
  lemma {:induction false} FilterKeepsDistinct(s: seq<Pane>, keep: Pane -> bool)
    requires DistinctIds(s)
    ensures DistinctIds(Filter(s, keep))
  {
    if |s| > 0 {
      DistinctConcat([s[0]], s[1..]);
      assert [s[0]] + s[1..] == s;
      FilterKeepsDistinct(s[1..], keep);
      var head := if keep(s[0]) then [s[0]] else [];
      DistinctConcat(head, Filter(s[1..], keep));
    }
  }

  /** `builtInPanes`, frozen when the registry is created, and `pluginPanes`. */
  datatype Registry = Registry(builtInPanes: seq<Pane>, pluginPanes: seq<Pane>)

  /** The registry as Zotero starts it: the built-in panes and no plugin panes. */
  function Initial(): (r: Registry)
    ensures r.builtInPanes == BuiltInPanes() && r.pluginPanes == []
    ensures Valid(r)
  {
    var r := Registry(BuiltInPanes(), []);
    assert AllPanes(r) == BuiltInPanes();
    r
  }

  function AllPanes(reg: Registry): seq<Pane> {
    reg.builtInPanes + reg.pluginPanes
  }

  /** The registry's invariant: ids are distinct across built-in and plugin
      panes. */
  ghost predicate Valid(reg: Registry) {
    DistinctIds(AllPanes(reg))
  }

  /** The `options` object passed to `register`; a missing property is `None`. */
  datatype PaneOptions = PaneOptions(
    id: Option<string>,
    pluginID: Option<string>,
    parent: Option<string>,
    paneLabel: Option<string>,
    image: Option<string>,
    src: Option<string>,
    extraDTD: Option<seq<string>>,
    scripts: Option<seq<string>>)

  /** A JavaScript-truthy string property: present and not empty. */
  predicate Truthy(s: Option<string>) {
    s.Some? && s.value != ""
  }

  /** The errors `register` throws. */
  datatype RegisterError = MissingRequired | AlreadyRegistered(id: string)

  /** `register`. `nameOf` and `iconOf` stand for the plugin's name and
      24-pixel icon, looked up only when no label or image is given. On a
      failure the registry is left as it was. */
  function Register(reg: Registry, options: PaneOptions, nameOf: string -> string, iconOf: string -> Option<string>)
    : (r: Result<Registry, RegisterError>)
    ensures r == Failure(MissingRequired) <==>
      !Truthy(options.id) || !Truthy(options.pluginID) || !Truthy(options.src)
    ensures r.Failure? && r.error.AlreadyRegistered? <==>
      && Truthy(options.id) && Truthy(options.pluginID) && Truthy(options.src)
      && (HasId(reg.builtInPanes, options.id.value) || HasId(reg.pluginPanes, options.id.value))
    ensures r.Success? ==>
      && r.value.builtInPanes == reg.builtInPanes
      && |r.value.pluginPanes| == |reg.pluginPanes| + 1
      && r.value.pluginPanes[..|reg.pluginPanes|] == reg.pluginPanes
      && var p := r.value.pluginPanes[|reg.pluginPanes|];
      && Some(p.id) == options.id
      && p.pluginID == options.pluginID
      && p.parent == options.parent
      && Some(p.src) == options.src
      && p.extraDTD == options.extraDTD
      && p.scripts == options.scripts
      && !p.defaultXUL
      && p.paneLabel == RawLabel(if Truthy(options.paneLabel) then options.paneLabel.value else nameOf(options.pluginID.value))
      && p.image == (if Truthy(options.image) then options.image else iconOf(options.pluginID.value))
  {
    if !Truthy(options.id) || !Truthy(options.pluginID) || !Truthy(options.src) then
      Failure(MissingRequired)
    else if HasId(reg.builtInPanes, options.id.value) || HasId(reg.pluginPanes, options.id.value) then
      Failure(AlreadyRegistered(options.id.value))
    else
      var pane := Pane(
        options.id.value,
        options.pluginID,
        options.parent,
        RawLabel(if Truthy(options.paneLabel) then options.paneLabel.value else nameOf(options.pluginID.value)),
        if Truthy(options.image) then options.image else iconOf(options.pluginID.value),
        options.src.value,
        options.extraDTD,
        options.scripts,
        false);
      assert (reg.pluginPanes + [pane])[..|reg.pluginPanes|] == reg.pluginPanes;
      Success(reg.(pluginPanes := reg.pluginPanes + [pane]))
  }

  /** A successful registration keeps ids distinct. */
  lemma RegisterPreservesValid(reg: Registry, options: PaneOptions, nameOf: string -> string, iconOf: string -> Option<string>)
    requires Valid(reg)
    ensures var r := Register(reg, options, nameOf, iconOf);
      r.Success? ==> Valid(r.value)
  {
    var r := Register(reg, options, nameOf, iconOf);
    if r.Success? {
      var n := |reg.pluginPanes|;
      var pane := r.value.pluginPanes[n];
      assert r.value.pluginPanes == reg.pluginPanes + [pane];
      assert AllPanes(r.value) == AllPanes(reg) + [pane];
      DistinctConcat(AllPanes(reg), [pane]);
      DistinctConcat(reg.builtInPanes, reg.pluginPanes);
      forall q | q in AllPanes(reg) ensures q.id != pane.id {
        if q in reg.builtInPanes {
          assert !HasId(reg.builtInPanes, pane.id);
        } else {
          assert !HasId(reg.pluginPanes, pane.id);
        }
      }
    }
  }

  /** `unregister`: drops every plugin pane with id `id`; built-in panes
      are never touched. */
  function Unregister(reg: Registry, id: string): (r: Registry)
    ensures r.builtInPanes == reg.builtInPanes
    ensures forall p :: p in r.pluginPanes <==> p in reg.pluginPanes && p.id != id
    ensures !HasId(r.pluginPanes, id)
  {
    reg.(pluginPanes := Filter(reg.pluginPanes, (p: Pane) => p.id != id))
  }

  /** Unregistering keeps the remaining panes in their order: it acts on
      each part of the list separately. */
  lemma UnregisterKeepsOrder(builtIn: seq<Pane>, a: seq<Pane>, b: seq<Pane>, id: string)
    ensures Unregister(Registry(builtIn, a + b), id).pluginPanes
      == Unregister(Registry(builtIn, a), id).pluginPanes + Unregister(Registry(builtIn, b), id).pluginPanes
  {
    FilterConcat(a, b, (p: Pane) => p.id != id);
  }

  /** Unregistering keeps ids distinct. */
  lemma UnregisterPreservesValid(reg: Registry, id: string)
    requires Valid(reg)
    ensures Valid(Unregister(reg, id))
  {
    var r := Unregister(reg, id);
    DistinctConcat(reg.builtInPanes, reg.pluginPanes);
    FilterKeepsDistinct(reg.pluginPanes, (p: Pane) => p.id != id);
    DistinctConcat(reg.builtInPanes, r.pluginPanes);
  }

  /** Unregistering a pane that was just registered restores the registry. */
  lemma UnregisterUndoesRegister(reg: Registry, options: PaneOptions, nameOf: string -> string, iconOf: string -> Option<string>)
    ensures var r := Register(reg, options, nameOf, iconOf);
      r.Success? ==> Unregister(r.value, options.id.value) == reg
  {
    var r := Register(reg, options, nameOf, iconOf);
    if r.Success? {
      var id := options.id.value;
      var keep := (p: Pane) => p.id != id;
      var pane := r.value.pluginPanes[|reg.pluginPanes|];
      assert r.value.pluginPanes == reg.pluginPanes + [pane];
      FilterConcat(reg.pluginPanes, [pane], keep);
      assert Filter([pane], keep) == [] by {
        assert Filter([pane], keep) == (if keep(pane) then [pane] else []) + Filter([pane][1..], keep);
      }
      forall i | 0 <= i < |reg.pluginPanes| ensures keep(reg.pluginPanes[i]) {
        assert reg.pluginPanes[i] in reg.pluginPanes;
      }
      FilterKeepsAll(reg.pluginPanes, keep);
    }
  }

  /** What a plugin can do to the registry. */
  datatype PaneOp = RegisterOp(options: PaneOptions) | UnregisterOp(id: string)

  /** One operation; a `register` that throws leaves the registry as it was. */
  function Apply(reg: Registry, op: PaneOp, nameOf: string -> string, iconOf: string -> Option<string>): Registry {
    match op
    case RegisterOp(options) =>
      (match Register(reg, options, nameOf, iconOf)
       case Success(next) => next
       case Failure(_) => reg)
    case UnregisterOp(id) => Unregister(reg, id)
  }

  /** A sequence of operations, in order. */
  function Run(reg: Registry, ops: seq<PaneOp>, nameOf: string -> string, iconOf: string -> Option<string>): Registry
    decreases |ops|
  {
    if |ops| == 0 then reg else Run(Apply(reg, ops[0], nameOf, iconOf), ops[1..], nameOf, iconOf)
  }

  /** One operation keeps ids distinct; a failed register changes nothing. */
  lemma ApplyPreservesValid(reg: Registry, op: PaneOp, nameOf: string -> string, iconOf: string -> Option<string>)
    requires Valid(reg)
    ensures Valid(Apply(reg, op, nameOf, iconOf))
    ensures op.RegisterOp? && Register(reg, op.options, nameOf, iconOf).Failure? ==> Apply(reg, op, nameOf, iconOf) == reg
  {
    match op {
      case RegisterOp(options) => RegisterPreservesValid(reg, options, nameOf, iconOf);
      case UnregisterOp(id) => UnregisterPreservesValid(reg, id);
    }
  }

  /** Ids stay distinct across built-in and plugin panes whatever plugins
      register and unregister. */
  lemma {:induction false} RunPreservesValid(reg: Registry, ops: seq<PaneOp>, nameOf: string -> string, iconOf: string -> Option<string>)
    requires Valid(reg)
    ensures Valid(Run(reg, ops, nameOf, iconOf))
    decreases |ops|
  {
    if |ops| > 0 {
      ApplyPreservesValid(reg, ops[0], nameOf, iconOf);
      RunPreservesValid(Apply(reg, ops[0], nameOf, iconOf), ops[1..], nameOf, iconOf);
    }
  }
}

=== FILE: seqs.dfy ===
/** Sequence helpers shared by the dialog and the preference-pane registry. */
module Seqs {

  /** The elements of `s` that satisfy `p`, in their original order, as
      JavaScript's `Array.prototype.filter` returns them. */
  function Filter<T(!new)>(s: seq<T>, p: T -> bool): (r: seq<T>)
    ensures |r| <= |s|
    ensures forall x :: x in r <==> x in s && p(x)
  {
    if |s| == 0 then []
    else (if p(s[0]) then [s[0]] else []) + Filter(s[1..], p)
  }

  /** Filtering commutes with concatenation, so the kept elements keep
      their relative order. */
  lemma {:induction false} FilterConcat<T(!new)>(a: seq<T>, b: seq<T>, p: T -> bool)
    ensures Filter(a + b, p) == Filter(a, p) + Filter(b, p)
  {
    if |a| == 0 {
      assert a + b == b;
    } else {
      assert (a + b)[0] == a[0];
      assert (a + b)[1..] == a[1..] + b;
      FilterConcat(a[1..], b, p);
    }
  }

  /** A filter that every element passes is the identity. */
  lemma {:induction false} FilterKeepsAll<T(!new)>(s: seq<T>, p: T -> bool)
    requires forall i | 0 <= i < |s| :: p(s[i])
    ensures Filter(s, p) == s
  {
    if |s| > 0 {
      FilterKeepsAll(s[1..], p);
      assert [s[0]] + s[1..] == s;
    }
  }

  /** The filter keeps the whole sequence exactly when every element passes. */
  lemma {:induction false} FilterFullLength<T(!new)>(s: seq<T>, p: T -> bool)
    ensures |Filter(s, p)| == |s| <==> forall i | 0 <= i < |s| :: p(s[i])
  {
    if |s| > 0 {
      FilterFullLength(s[1..], p);
      assert forall i | 1 <= i < |s| :: s[i] == s[1..][i - 1];
    }
  }

  /** Two filters in a row are one filter by the conjunction `pq`. */
  lemma {:induction false} FilterFilter<T(!new)>(s: seq<T>, p: T -> bool, q: T -> bool, pq: T -> bool)
    requires forall x :: pq(x) == (p(x) && q(x))
    ensures Filter(Filter(s, p), q) == Filter(s, pq)
  {
    if |s| > 0 {
      FilterFilter(s[1..], p, q, pq);
      var head := if p(s[0]) then [s[0]] else [];
      FilterConcat(head, Filter(s[1..], p), q);
      if p(s[0]) {
        assert Filter(head, q) == (if q(s[0]) then [s[0]] else []) + Filter(head[1..], q);
        assert head[1..] == [];
      }
    }
  }

  /** The set of elements of a sequence. */
  function Elements<T>(s: seq<T>): set<T>
  {
    set x | x in s
  }

  /** A sequence is the part before position `i`, the element at `i` and
      the part after it. */
  lemma SplitAt<T>(s: seq<T>, i: nat)
    requires i < |s|
    ensures s == (s[..i] + [s[i]]) + s[i + 1..]
  {
    assert s[i..] == [s[i]] + s[i + 1..];
    assert s == s[..i] + s[i..];
  }

  /** Regrouping a concatenation of four parts. */
  lemma Regroup<T>(a: seq<T>, b: seq<T>, c: seq<T>, d: seq<T>)
    ensures a + (b + c) + d == (a + b) + (c + d)
  {
  }

  /** Concatenation is associative. */
  lemma Assoc<T>(a: seq<T>, b: seq<T>, c: seq<T>)
    ensures a + (b + c) == (a + b) + c
  {
  }
}

=== FILE: views.dfy ===
/** What the dialog shows, recomputed after every change: the action each
    row will receive, the state of each category checkbox and whether the
    toggle and accept buttons are enabled. */
module Views {
  import opened Seqs
  import opened Items
  import opened Linked
  import opened Inclusion
  import opened Bulk

  /** The "action" column: skipped, merged into the counterpart,
      overwriting the counterpart, or copied as a new item. */
  datatype Action = Skip | Merge | Overwrite | New

  /** `contextRow` greys the row out. */
  datatype RowData = RowData(contextRow: bool, action: Action)

  /** `_getExtraRowData`. Only the row's own id is looked up in the index,
      never its parent's. */
  function GetExtraRowData(d: Dialog, row: Item): (r: RowData)
    ensures r.contextRow <==> row.id in d.excluded
    ensures r.action == Skip <==> row.id in d.excluded
    ensures r.action == Merge <==> row.id !in d.excluded && d.linked.Has(row.id) && row.IsAttachment()
    ensures r.action == Overwrite <==> row.id !in d.excluded && d.linked.Has(row.id) && !row.IsAttachment()
    ensures r.action == New <==> row.id !in d.excluded && !d.linked.Has(row.id)
  {
    var excluded := row.id in d.excluded;
    var action :=
      if excluded then Skip
      else if row.id in d.linked.target then (if row.IsAttachment() then Merge else Overwrite)
      else New;
    RowData(excluded, action)
  }

  /** After excluding an item, its whole cascade is shown as skipped, also
      when the item was excluded already. */
  lemma ExcludedFamilySkipped(c: Catalog, d: Dialog, item: Item, row: Item)
    requires WellFormed(c) && Registered(c, item)
    requires ParentsIncluded(c, d.excluded)
    requires row.id in ExcludeCascade(item)
    ensures GetExtraRowData(Exclude(d, item), row).action == Skip
  {
    if item.id in d.excluded && row.id != item.id {
      ListedChildHasParent(c, item, row.id);
    }
  }

  /** After an include that is not refused, the item and its cascade are no
      longer skipped, and show merge, overwrite or new by their own link. */
  lemma IncludedFamilyNotSkipped(d: Dialog, item: Item, row: Item)
    requires Allowed(d, item)
    requires row.id in IncludeCascade(item)
    ensures item.id in d.excluded ==> GetExtraRowData(Include(d, item), row).action != Skip
  {
  }

  /** A child whose parent has a counterpart but which has none of its own
      is still a new item. */
  lemma ParentLinkDoesNotClassify(d: Dialog, row: Item)
    requires row.id !in d.excluded && !d.linked.Has(row.id)
    requires row.parentItemID.Some? && d.linked.Has(row.parentItemID.value)
    ensures GetExtraRowData(d, row).action == New
  {
  }

  /** With overwriting off, toggling an excluded parent that has no
      counterpart also includes its attachments that do have one: the gate
      is checked for the parent only, never for the children it pulls in.
      Such an attachment then shows merge, although the toggle button skips
      it and including it directly would be refused. */
  lemma GateBypassedThroughParent(c: Catalog, d: Dialog, parent: Item, child: Id)
    requires WellFormed(c) && Registered(c, parent)
    requires !d.overwrite
    requires parent.parentItemID.None? && !d.linked.Has(parent.id)
    requires parent.id in d.excluded
    requires child in parent.attachments && d.linked.Has(child)
    ensures child in c && !Allowed(d, c[child])
    ensures GetExtraRowData(ToggleSelected(d, [parent]), c[child]).action == Merge
  {
    ListedChildHasParent(c, parent, child);
    assert ChildrenPointBack(c, c[parent.id]);
    assert c[child].IsAttachment();
    assert KeepAllowed(d, [parent]) == [parent] by {
      FilterKeepsAll([parent], x => !HasLinkedItem(d, x));
    }
    assert AnyExcluded(d, [parent]);
    assert ToggleSelected(d, [parent]) == Include(d, parent);
  }

  /** A category checkbox: checked, indeterminate, disabled. */
  datatype CheckboxView = CheckboxView(checked: bool, indeterminate: bool, disabled: bool)

  /** `item` is shown as left out: excluded, and not hidden by the gate. */
  predicate Off(d: Dialog, item: Item) {
    item.id in d.excluded && Allowed(d, item)
  }

  /** `_updateCheckbox(checkbox, items)`: it compares the number of allowed
      excluded items with the number of items it was given. */
  function UpdateCheckbox(d: Dialog, items: seq<Item>): (r: CheckboxView)
    ensures |items| == 0 <==> r.disabled
    ensures r.disabled ==> !r.checked && !r.indeterminate
    ensures r.checked <==> |items| > 0 && forall i | 0 <= i < |items| :: !Off(d, items[i])
    ensures r.indeterminate <==>
      (exists i | 0 <= i < |items| :: Off(d, items[i])) && (exists i | 0 <= i < |items| :: !Off(d, items[i]))
  {
    var isExcluded := (x: Item) => x.id in d.excluded;
    var excluded := KeepAllowed(d, Filter(items, isExcluded));
    OffCount(d, items);
    if |items| == 0 then CheckboxView(false, false, true)
    else if |excluded| == 0 then CheckboxView(true, false, false)
    else if |excluded| == |items| then CheckboxView(false, false, false)
    else CheckboxView(false, true, false)
  }

  /** The count the checkbox compares is that of the items shown as left
      out: none when no item is, all when every item is. */
  lemma OffCount(d: Dialog, items: seq<Item>)
    ensures var excluded := KeepAllowed(d, Filter(items, (x: Item) => x.id in d.excluded));
      && (|excluded| == 0 <==> forall i | 0 <= i < |items| :: !Off(d, items[i]))
      && (|excluded| == |items| <==> forall i | 0 <= i < |items| :: Off(d, items[i]))
  {
    var isExcluded := (x: Item) => x.id in d.excluded;
    var excluded := KeepAllowed(d, Filter(items, isExcluded));
    if d.overwrite {
      FilterFullLength(items, isExcluded);
    } else {
      var notLinked := (x: Item) => !HasLinkedItem(d, x);
      var both := (x: Item) => isExcluded(x) && notLinked(x);
      FilterFilter(items, isExcluded, notLinked, both);
      FilterFullLength(items, both);
    }
    if |excluded| > 0 {
      assert excluded[0] in excluded;
    }
    forall i | 0 <= i < |items| && Off(d, items[i]) ensures |excluded| > 0 {
      assert items[i] in excluded;
    }
  }

  /** How `_updateCheckboxes` shows a category: its allowed members are
      passed in, so the state reads off their exclusion alone. */
  lemma CategoryCheckbox(d: Dialog, category: seq<Item>)
    ensures var shown := KeepAllowed(d, category);
      var r := UpdateCheckbox(d, shown);
      && (|shown| == 0 ==> r == CheckboxView(false, false, true))
      && (|shown| > 0 && (forall x | x in shown :: x.id !in d.excluded) ==> r == CheckboxView(true, false, false))
      && (|shown| > 0 && (forall x | x in shown :: x.id in d.excluded) ==> r == CheckboxView(false, false, false))
      && (r.indeterminate <==> (exists x | x in shown :: x.id in d.excluded) && (exists x | x in shown :: x.id !in d.excluded))
  {
    var shown := KeepAllowed(d, category);
    assert forall i | 0 <= i < |shown| :: shown[i] in shown;
  }

  /** The toggle button's label: "select" or "deselect", for one item or
      several. */
  datatype ToggleLabel = SelectItems(multiple: bool) | DeselectItems(multiple: bool)

  datatype ButtonsView = ButtonsView(toggleDisabled: bool, toggleLabel: ToggleLabel, acceptDisabled: bool)

  /** `_updateButtons`. Accept is disabled when every selected top-level
      item is excluded, whatever their children's state. */
  function UpdateButtons(d: Dialog, selected: seq<Item>): (r: ButtonsView)
    ensures r.toggleDisabled <==> forall x | x in selected :: !Allowed(d, x)
    ensures r.acceptDisabled <==> forall x | x in d.items :: x.id in d.excluded
    ensures r.toggleLabel.SelectItems? <==> |KeepAllowed(d, selected)| == 0 || AnyExcluded(d, KeepAllowed(d, selected))
    ensures r.toggleLabel.multiple <==> |KeepAllowed(d, selected)| > 1
  {
    var allowed := KeepAllowed(d, selected);
    var anyExcluded := |allowed| == 0 || exists x | x in allowed :: x.id in d.excluded;
    var multiple := |allowed| > 1;
    var toggleLabel := if anyExcluded then SelectItems(multiple) else DeselectItems(multiple);
    var remaining := Filter(d.items, (x: Item) => x.id !in d.excluded);
    assert |allowed| > 0 ==> allowed[0] in allowed;
    assert |remaining| > 0 ==> remaining[0] in remaining;
    ButtonsView(|allowed| == 0, toggleLabel, |remaining| == 0)
  }

  /** The toggle button says what pressing it does: "select" includes every
      allowed selected item, "deselect" excludes them all. */
  lemma ToggleLabelPredictsToggle(d: Dialog, selected: seq<Item>)
    ensures var allowed := KeepAllowed(d, selected);
      var after := ToggleSelected(d, selected);
      && (UpdateButtons(d, selected).toggleLabel.SelectItems? ==> forall x | x in allowed :: x.id !in after.excluded)
      && (UpdateButtons(d, selected).toggleLabel.DeselectItems? ==> forall x | x in allowed :: x.id in after.excluded)
  {
  }
}

=== FILE: wrappers.dfy ===
/** Optional values and results with an error, for the places where the
    modelled code uses `undefined`/`null` or throws. */
module Wrappers {

  datatype Option<+T> = None | Some(value: T)

  datatype Result<+R, +E> = Success(value: R) | Failure(error: E)
}
